=== FILE: README.md ===
# Medico storefront logic in Dafny

A Dafny model of the logic layer of the Medico pharmacy demo site. The site
runs in the browser. Under its DOM code sits a small layer of list, record and
map logic, which this project models and proves things about:

- **Cart ledger.** There are two variants. The shop pages (`main.js`) keep an
  in-memory list and write it back after each change: add, remove, set an
  absolute quantity, badge count and total. The cart page (`cart.js`)
  re-reads the stored cart for each operation: change by a delta, remove,
  totals with a flat shipping charge, and the checkout rule.
- **Recent searches** (`main.js`). A list of at most five queries, newest
  first, with no two entries equal up to case.
- **Interaction index** (`interactions.js`). The fixed catalog and interaction
  table, the unordered-pair lookup, the placeholder for unknown ids, the
  selection check and the "common interactions" grid.
- **Mock document service** (`firebase.js`, `firebaseDB`). Named collections
  of JSON documents with add, list, get, update (shallow merge) and delete.
- **Mock authentication** (`firebase.js` `firebaseAuth`, `auth.js`). The
  sign-in branch table, generated users, the stored current user, form
  validation and `isAdmin`.
- **Order submission** (`cart.js`). Assembling the order, the remote or local
  save path, and clearing the cart.

Browser storage is an explicit `Storage.Store`: a map from key to a typed
entry. The keys are `medicineCart`, `recentSearches`, `orders`, `user` and any
collection name. A key that is missing, or that holds an entry of another
kind, reads as the empty value. This mirrors the site's
`JSON.parse(localStorage.getItem(k) || '[]')`. Every operation is a pure
function of the store it reads. An operation that writes returns the new
store. A document-service call that can fail (`getDocument`,
`updateDocument`, `deleteDocument`) returns `Results.Result`, with the error
message in its `Err` case. The calls that always succeed return their
success value directly: `AddDocument` returns the new store and the
generated id, `GetCollection` returns the list, and `SignOut` returns the
store. Prices are integer
cents. Timestamps (`Date.now()`), the base-36 text of `Math.random()` and the
availability of the remote services are parameters.

Files: `results.dfy` (Option/Result), `text.dfy` (trim, case mapping, e-mail
local part, decimal rendering), `model.dfy` (entities and their JSON shape),
`storage.dfy`, `cart_items.dfy` (cart logic used by both pages),
`main_cart.dfy`, `cart_page.dfy`, `recent_searches.dfy`, `interactions.dfy`,
`document_store.dfy`, `auth_service.dfy`, `auth_page.dfy`, `checkout.dfy`.

Two behaviours of the code are easy to miss:

- The cart page never stores a line with quantity 0 or less, because
  `updateQuantity` in `cart.js` removes a line whose new quantity is 0 or
  below. The shop pages' `updateQuantity` in `main.js` removes a line only
  when the new quantity is exactly 0, so it stores a negative quantity as
  given. `MainCart.SetQuantityValid` states exactly when the cart invariant
  survives.
- `firebaseAuth.signIn` accepts any credentials, empty ones included. Only
  the login form rejects an empty e-mail or password.

## Model

| member | source | states |
|---|---|---|
| `Text.Trim` | auth.js:78 | The trimmed text is the slice of the input left after removing leading and trailing ECMAScript whitespace. Everything removed is whitespace, and a non-empty result starts and ends with a non-blank. |
| `Text.TrimEmptyIff` | auth.js:82 | A trimmed e-mail is empty exactly when every character of the input is whitespace. |
| `Text.BeforeAt` | auth.js:56 | `email.split('@')[0]` is the prefix before the first '@'. It holds no '@', and it is the whole string when there is none. |
| `Text.BeforeAtWithoutAt` | firebase.js:62 | An address without '@' is its own display name. |
| `Text.ToLower` | main.js:294 | Lower-casing keeps the length and lower-cases each character on its own. |
| `Text.ToLowerIdempotent` | main.js:294 | Lower-casing is idempotent, so comparing lower-cased queries is a stable case-insensitive equality. |
| `Text.DecimalRoundTrip` | firebase.js:60 | Reading back the decimal digits of a timestamp gives the timestamp. |
| `Text.DecimalInjective` | firebase.js:92 | Two different timestamps never render to the same digits. |
| `Model.ItemsRoundTrip` | cart.js:238 | A cart survives stringify-then-parse unchanged, an `undefined` image included. |
| `Model.OrderFields` | cart.js:229-242 | The stored order object has no `id`, `createdAt` or `updatedAt` of its own. It carries the customer object, the payment method, the notes, the total and the date as given. Its `items` parse back to the order's cart, and its `status` is the status text. `userId` is present exactly when the order has one, and is then that id. |
| `Model.OrderRoundTrip` | cart.js:229-242 | A whole order survives stringify-then-parse unchanged: customer, payment method, notes, items, total, date, status and the optional user id. |
| `Storage.WriteCart` | main.js:156-158 | After saving, the cart reads back as written, and no other key changes. |
| `Storage.WriteSearches` | main.js:302 | After saving, the search list reads back as written, and no other key changes. |
| `Storage.WriteUser` | auth.js:53 | After saving, the current user reads back as written, and no other key changes. |
| `Storage.WriteCollection` | firebase.js:130 | After saving, the collection reads back as written, and no other key changes. |
| `Storage.RemoveKey` | cart.js:323 | `removeItem` deletes exactly the key and leaves all others. |
| `CartItems.IndexOf` | cart.js:128 | `findIndex` gives the first line with the id, and is absent exactly when no line has it. |
| `CartItems.WithoutId` | main.js:117-118 | `filter` leaves no line with the id and keeps exactly the other lines. It shortens the cart when the id was present and returns it unchanged when it was not. |
| `CartItems.WithoutIdAppend` | main.js:117-118 | `filter` works line by line on any cart, duplicate ids included. Removing from a concatenation removes from each part and keeps the parts in order, and a single line goes exactly when it has the id. |
| `CartItems.WithoutIdSplice` | cart.js:155 | On a cart with unique ids, removing an id splices out exactly its line and keeps the rest in order. |
| `CartItems.WithoutIdValid` | main.js:117-118 | Removing an id keeps ids unique and quantities positive. |
| `CartItems.ItemCount` | main.js:165 | The `reduce` over quantities gives at least one per line when every quantity is at least 1. |
| `CartItems.SumsAppend` | cart.js:79 | Both `reduce` sums, count and total, add up over concatenation. |
| `CartItems.SumsNonNegative` | main.js:178-180 | With no negative price or quantity, the count and the total are never negative. |
| `CartItems.SumsSplice` | main.js:165 | Removing a line lowers the badge count by its quantity and the total by its price times quantity. |
| `CartItems.CartBadge` | main.js:161-175 | The badge count is the sum of the line quantities, and the badge is visible exactly when that sum is positive, whatever the quantities. On a valid cart the count is at least the number of lines, and the badge is visible exactly when the cart is non-empty. |
| `MainCart.AddToCart` | main.js:90-104 | For an id already present, on any cart, the length is unchanged, the first line with the id has its quantity raised by one, and every other position keeps its line. For a new id, exactly one line is appended with quantity 1 and the medicine's id, name, price and image. No line for another id changes. |
| `MainCart.AddToCartSums` | main.js:165-179 | Adding one medicine raises the item count by one and the total by one unit price. |
| `MainCart.AddToCartValid` | main.js:90-104 | `addToCart` keeps ids unique and quantities positive. |
| `MainCart.AddTimesNew` | main.js:90-104 | Adding the same new medicine n times gives the old cart followed by exactly one line for it, with quantity n. |
| `MainCart.RemoveIdempotent` | main.js:117-118 | A second removal of the same id changes nothing. |
| `MainCart.SetQuantity` | main.js:133-153 | An absent id changes nothing. Quantity 0 gives exactly the `filter` result: every line with the id goes and, by `WithoutIdAppend`, the rest keep their order. With unique ids that is the cart with the line spliced out. Any other value replaces only the first matching line's quantity, and the length and other lines stay the same. |
| `MainCart.SetQuantityValid` | main.js:133-143 | On a valid cart, the result is valid exactly when the id is absent or the new quantity is not negative. |
| `CartPage.RemoveFromCart` | cart.js:150-158 | The stored cart becomes exactly the `filter` result, on any cart: every line for the id goes and, by `WithoutIdAppend`, the others keep their order. With unique ids, that is the cart with that line spliced out. Removing an absent id leaves it as it was, and only the cart key is written. |
| `CartPage.UpdateQuantity` | cart.js:123-142 | An absent id leaves the whole store unchanged. A line whose quantity would fall to 0 or below is removed: the stored cart becomes the `filter` result for the id. Otherwise only that line's quantity changes, by the delta. |
| `CartPage.RemoveFromCartValid` | cart.js:150-158 | Removal keeps the stored cart valid. |
| `CartPage.UpdateQuantityValid` | cart.js:123-158 | Any delta keeps the stored cart valid, so a non-positive quantity is never persisted. |
| `CartPage.DecreaseByQuantityRemoves` | cart.js:133-139 | Decreasing a line by its whole quantity removes it. |
| `CartPage.Summarize` | cart.js:25-89 | The subtotal is the sum of price times quantity, and 0 for an empty cart. The total is always the subtotal plus 500 cents shipping. Checkout is enabled exactly when the cart is non-empty. |
| `CartPage.SummarizeExample` | cart.js:79-85 | 5.99 x 2 plus 6.49 x 1 gives a subtotal of 18.47 and a total of 23.47. |
| `CartPage.StoredBadge` | cart.js:169-184 | The badge count is the sum of the stored cart's quantities, and the badge is visible exactly when that sum is positive. On a valid stored cart it is visible exactly when the cart is non-empty. |
| `RecentSearches.DropMatches` | main.js:294 | The filter keeps exactly the entries that differ from the query up to case, and never lengthens the list. |
| `RecentSearches.DropMatchesAppend` | main.js:294 | The filter works entry by entry and keeps the survivors in their old order. It distributes over concatenation, and keeps a single entry exactly when it is not the query up to case. |
| `RecentSearches.Push` | main.js:290-300 | The query becomes the head, and the list holds between 1 and 5 entries. No other entry matches the query up to case. The rest of the list is a prefix of the filtered old list, cut to fit. With `DropMatchesAppend`, the older entries therefore keep their order. |
| `RecentSearches.PushNoCaseDuplicates` | main.js:290-300 | A list with no case-insensitive duplicates keeps that property after a search. |
| `RecentSearches.PushSameQuery` | main.js:294-300 | Searching again in another letter case gives the same list as one search in the later spelling: the entry moves to the front once. |
| `RecentSearches.PushIdempotent` | main.js:294-300 | Searching for the same query twice gives the same list as searching once. |
| `RecentSearches.GetRecentSearches` | main.js:284-287 | The result is the stored list when one is stored, and the empty list when nothing is. |
| `RecentSearches.AddToRecentSearches` | main.js:290-304 | The stored list gets the query at its head and holds at most 5 entries. No other entry matches the query up to case. The rest is a prefix of the filtered old list, so with `DropMatchesAppend` older entries keep their order. As many older entries survive as fit: the length is one more than the filtered old list, capped at 5. The stored list is `Push` of the old list and the query. No key other than `recentSearches` is written. |
| `RecentSearches.SubmitSearch` | main.js:267-279 | A blank query leaves the store unchanged. Any other query is recorded trimmed, at the head of the list, and the stored list becomes `Push` of the old list and the trimmed query. The older entries that follow are a prefix of the filtered old list. Only the `recentSearches` key is written. |
| `Interactions.PairsAsSets` | interactions.js:216-218 | A record matches a lookup exactly when its two ids form the same set as the two ids queried. |
| `Interactions.FindInteraction` | interactions.js:215-220 | The result is absent exactly when no record matches the unordered pair. Otherwise it is the first matching record in list order. |
| `Interactions.FindInteractionSymmetric` | interactions.js:215-220 | Swapping the two ids gives the same result. |
| `Interactions.MedicineById` | interactions.js:258-260 | The result is the first catalog entry with the id, or the "Unknown Medicine" placeholder exactly when no entry has it. |
| `Interactions.CheckInteraction` | interactions.js:172-211 | An empty selection is rejected first and a repeated one second. A record is reported only for two distinct non-empty ids that it pairs, and it is the first such record in the table. "No interaction" is reported exactly when no record pairs them. |
| `Interactions.CheckInteractionSymmetric` | interactions.js:172-199 | The check gives the same outcome for either order of the two selections. |
| `Interactions.CommonInteractions` | interactions.js:110-138 | The grid has one card for each of the first 3 records, or for every record when there are fewer than 3. Card k shows record k's ids and severity. Its two names are the ones `getMedicineById` gives for the ids. Its excerpt is the first 120 characters of the description, or all of it when shorter. |
| `Interactions.CatalogIdsDistinct` | interactions.js:25-41 | No two catalog medicines share an id. |
| `Interactions.TableInCatalog` | interactions.js:25-80 | Every record names two catalog medicines, so no card shows the placeholder. |
| `Interactions.TableWellFormed` | interactions.js:44-80 | No record pairs a medicine with itself, and no two records cover the same pair. |
| `Interactions.KnownLookups` | interactions.js:52-58 | Ibuprofen with Aspirin finds the severe record in either order. Paracetamol with Ibuprofen finds nothing. |
| `DocumentStore.DocIndex` | firebase.js:164 | `findIndex` gives the first document whose `id` equals the key, and is absent exactly when none does. |
| `DocumentStore.NewDocId` | firebase.js:116 | The generated id is `doc-` followed by at most 9 characters. |
| `DocumentStore.Stamped` | firebase.js:122-126 | The new document has the data's keys plus `id` and `createdAt`. A caller's `id` overrides the generated one, and `createdAt` is the save time. |
| `DocumentStore.AddDocument` | firebase.js:113-133 | Exactly one stamped document is appended, earlier documents are unchanged, and only that collection's key is written. The reported id is the generated one. |
| `DocumentStore.GetCollection` | firebase.js:136-142 | The result is the stored list of documents, and the empty list for a collection that was never written. |
| `DocumentStore.GetDocument` | firebase.js:145-157 | The result is the first document with the id, or "Document does not exist" exactly when none has it. |
| `DocumentStore.Merged` | firebase.js:168-172 | After the shallow merge, the data's fields win over the old ones, old fields not in the data survive, and `updatedAt` is the save time. |
| `DocumentStore.UpdateDocument` | firebase.js:160-182 | The first match is replaced by the merge. The length and all other documents are unchanged, and only the collection key is written. A missing id gives the not-found error. |
| `DocumentStore.DeleteDocument` | firebase.js:185-203 | Exactly the first match is removed, so the length drops by one and the others keep their order. Only the collection key is written. A missing id gives the not-found error. |
| `DocumentStore.AddThenGet` | firebase.js:113-157 | A freshly added document, whose data has no `id` and whose generated id is not yet in use, is found again under the reported id. |
| `DocumentStore.AddThenDelete` | firebase.js:113-203 | Deleting a freshly added document (data without `id`, generated id not yet in use) restores the collection and leaves every other key as it was. |
| `DocumentStore.UpdateThenGet` | firebase.js:145-182 | After an update whose data has no `id`, reading the id gives the merged document. |
| `AuthService.GeneratedUser` | firebase.js:91-95 | A generated user has the `user-` uid that reads back as the timestamp, the e-mail given, the e-mail's local part as name, and no admin flag. |
| `AuthService.SignUp` | firebase.js:55-66 | Sign-up always succeeds. The uid is `user-` followed by the timestamp's digits, the display name is the e-mail's local part, and the user is not an admin. |
| `AuthService.SignIn` | firebase.js:69-99 | Sign-in never errors. The admin credentials give `admin-uid` / "Admin" with the admin flag. The demo credentials give `user-uid` / "Test User". Anything else gives a generated user. The admin flag is set exactly for the admin credentials. |
| `AuthService.GeneratedUidsDistinct` | firebase.js:89-95 | A generated uid never equals `admin-uid` or `user-uid`, nor a uid generated at another instant. |
| `AuthService.SignOut` | firebase.js:102-107 | Sign-out removes the stored user and leaves every other key untouched. |
| `AuthPage.DisplayNameFor` | auth.js:56 | The user's own display name is kept when it is non-empty. Otherwise the name is the part of the e-mail before the first '@': a prefix without '@' that, when shorter than the e-mail, is followed by an '@'. It is the whole e-mail when there is no '@'. The name is empty exactly when the user has none and the e-mail is empty or starts with '@'. |
| `AuthPage.SaveUserAsWritten` | auth.js:52-58 | The source's save stores uid, e-mail and the display-name fallback, and drops the admin flag. |
| `AuthPage.AdminSignInLosesFlag` | auth.js:52-58 | Saving the admin user that sign-in returns, as the source does, leaves `isAdmin()` false. |
| `AuthPage.SaveUser` | auth.js:52-58 | The corrected save stores the user with the display-name fallback and keeps the admin flag. Only the `user` key is written. |
| `AuthPage.IsAdmin` | auth.js:327-330 | `isAdmin()` holds only when a user is stored. |
| `AuthPage.IsAdminAfterWrite` | auth.js:327-330 | Right after a user is stored, `isAdmin()` is exactly that user's admin flag. |
| `AuthPage.SignOutNotAdmin` | auth.js:327-330 | After sign-out, `isAdmin()` is false. |
| `AuthPage.MockLogin` | auth.js:272-308 | The mock login always stores a user with the entered e-mail. It is an admin exactly for the admin credentials, and only the `user` key is written. |
| `AuthPage.MockLoginMatchesSignIn` | auth.js:272-308 | The mock login stores exactly the user that the sign-in service returns. |
| `AuthPage.MockSignup` | auth.js:311-324 | The mock sign-up stores a non-admin user. The uid is `new-user-` followed by the timestamp, and the name is the e-mail's local part. |
| `AuthPage.HandleLogin` | auth.js:61-113 | Login is rejected, with the store unchanged, exactly when the trimmed e-mail or the password is empty. Otherwise a user with the trimmed e-mail is stored, and only the `user` key is written. The user is an admin exactly when the admin credentials went through the mock fallback: with the auth service present, `saveUserToLocalStorage` drops the flag. |
| `AuthPage.AdminLoginPathsDiffer` | auth.js:88-112 | The admin credentials give admin rights through the mock fallback but not through the auth service. |
| `AuthPage.HandleLoginCorrected` | auth.js:61-113 | With the corrected save, login is rejected exactly as before. Otherwise the user is an admin exactly for the admin credentials, on both paths. |
| `AuthPage.LoginPathsAgree` | auth.js:88-112 | With the corrected save, login through the auth service and through the mock fallback leaves the same store. |
| `AuthPage.SignupCheck` | auth.js:138-154 | The first failing check wins: a missing field, then mismatched passwords, then a password under 6 characters. The form passes exactly when all three pass. |
| `AuthPage.HandleSignup` | auth.js:116-181 | A failing form shows the first failure's message and leaves the store unchanged. A passing form stores a non-admin user with the trimmed e-mail and its local part as the name. The uid is `user-` or `new-user-` plus the timestamp, by path. |
| `Checkout.AssembleOrder` | cart.js:229-242 | The order holds the stored cart as its items and the displayed total (subtotal plus shipping). Its status is Pending and it has no user id. The form fields and the date are copied. |
| `Checkout.AttachUser` | cart.js:247-248 | The user id is set exactly when a user is stored, and is then that user's uid. Nothing else in the order changes. |
| `Checkout.LocalOrderId` | cart.js:307 | The local id is `ORD-` followed by at most 9 characters, none of them a lower-case letter. |
| `Checkout.SaveOrderLocally` | cart.js:305-325 | Exactly one order, carrying the local id, is appended to `orders`, earlier orders are unchanged, and the cart key is removed. No other key changes. |
| `Checkout.StoredOrderParses` | cart.js:229-242 | An order document written on either path parses back to the order it was written from. |
| `Checkout.SubmitOrder` | cart.js:220-274 | On every path exactly one order is appended and earlier orders are unchanged. Apart from `id` and `createdAt`, the new document is exactly the stringified order: the form's customer, payment method and notes, the cart at submission, the subtotal plus shipping, the date and status Pending. It has the stored user's uid exactly when a service was present and a user is stored. It has `id` set to the reported id, and a `createdAt` stamp exactly when the service accepted. The cart key is removed and nothing else changes. The id is the document id when the service accepts, and the `ORD-` id otherwise. |
| `Checkout.SubmitClearsCart` | cart.js:254-273 | Whichever path runs, the order id is non-empty, the cart reads as empty and the stored user is unchanged. |

## Left out

- DOM rendering, HTML templates, event wiring, toasts, button states, scrolling and redirects are not modelled. This covers `initUI`, `init`, `setupSearch`, the `setupEventListeners` and `addCartItemEventListeners` wiring, `updateUI`, `updateAuthUI`, the `displayCart` markup of both pages, `displayRecentSearches`, `populateMedicineDropdowns`, `displayInteraction`, `resetInteractionChecker`, `checkUserAuth`, `showCheckoutForm`, `hideCheckoutForm`, `showOrderSuccess`, `showToast`, `showAuthError`, `resetButton` and the page redirects. These are view code, and the model returns the data they render.
- `setTimeout` latency and callback ordering are not modelled. Each call completes synchronously and returns its success or error value.
- `JSON.parse` / `JSON.stringify` and `localStorage` itself are replaced by typed entries. A key written as one kind and read as another reads as empty, where the site would reinterpret the JSON.
- Floating-point prices and `toFixed(2)` are replaced by integer cents. The order total is taken from the cart summary instead of `parseFloat` of the displayed text.
- `Date.now()`, `new Date().toISOString()` and `Math.random()` are parameters. Only the id and uid prefixes are stated.
- `checkAuthState` and its `firebase.auth().onAuthStateChanged` call into the real Firebase SDK, which is not part of this model. The `typeof firebase` / `typeof firebaseAuth` checks become boolean or `Checkout.Backend` inputs.
- The Firebase configuration, dark mode, the mobile menu, `loadPopularMedicines`, `loadMedicinesFromJSON`, `displayMedicines` and image data are outside the logic layer.
- `loadData` of the interaction checker is the two constant tables `Interactions.Catalog` and `Interactions.Table`.
- `calculateCartTotal` of the shop pages is `CartItems.Subtotal`; `MainCart.AddToCartSums` and `CartItems.SumsSplice` state how it moves.
- `loadCart` of the shop pages is not modelled separately. It is `Storage.CartOf`, and the `MainCart` operations act on the list it returns.
- Text.ToLower: maps only the ASCII letters A-Z. JavaScript's `toLowerCase` also folds other scripts, so queries that differ only in non-ASCII case count as distinct here.
- Text.ToUpper: maps only the ASCII letters a-z, which covers the base-36 digits of the local order id.
- AuthPage.SignupCheck: counts the password length in code points. JavaScript counts UTF-16 code units, so the two differ for characters outside the Basic Multilingual Plane. The same applies to the 9-character cut of generated ids and the 120-character description excerpt.
- Checkout.SubmitOrder: with `BackendAccepts` it models the mock service, which writes the order into the same `orders` key. A real remote backend would not write to browser storage.

## Findings

| source | as written | input that shows it | evidently intended | confidence | as-written member | corrected member |
|---|---|---|---|---|---|---|
| auth.js:52-58 | `saveUserToLocalStorage` copies only `uid`, `email` and `displayName`, so the `isAdmin: true` that `firebaseAuth.signIn` returns for the admin is dropped | log in with `admin@medico.com` / `admin123` while `firebaseAuth` is loaded: `isAdmin()` is then false | the admin stays an admin, as on the mock-login path (auth.js:277-282) | medium, not executed; it depends on the login page loading the mock auth service | `AuthPage.HandleLogin` (with `AuthPage.SaveUserAsWritten`; shown by `AuthPage.AdminSignInLosesFlag` and `AuthPage.AdminLoginPathsDiffer`) | `AuthPage.HandleLoginCorrected` (with `AuthPage.SaveUser`; `AuthPage.LoginPathsAgree` proves both login paths then agree) |

=== FILE: auth_page.dfy ===
/**
 * The login and sign-up pages: input validation, the mock fallbacks used
 * when the auth service is missing, the stored current user and the admin
 * check.
 */
module AuthPage {
  import opened Results
  import opened Text
  import opened Model
  import opened Storage
  import AuthService

  /** The display name kept for a user: its own when non-empty, else the e-mail's local part. */
  function DisplayNameFor(u: User): (name: string)
    ensures u.displayName != "" ==> name == u.displayName
    ensures u.displayName == "" ==> name <= u.email && '@' !in name
    ensures u.displayName == "" && '@' !in u.email ==> name == u.email
    ensures u.displayName == "" && |name| < |u.email| ==> u.email[|name|] == '@'
    ensures name == "" <==> u.displayName == "" && (u.email == "" || u.email[0] == '@')
  {
    if u.displayName != "" then u.displayName else BeforeAt(u.email)
  }

  /**
   * `saveUserToLocalStorage` as the source writes it: only uid, email and
   * display name are copied, so an `isAdmin` flag on the user is lost.
   */
  function SaveUserAsWritten(st: Store, u: User): (st': Store)
    ensures CurrentUser(st') == Some(User(u.uid, u.email, DisplayNameFor(u), false))
    ensures SameExcept(st, st', UserKey)
  {
    WriteUser(st, User(u.uid, u.email, DisplayNameFor(u), false))
  }

  /** `saveUserToLocalStorage` with the admin flag carried over. */
  function SaveUser(st: Store, u: User): (st': Store)
    ensures CurrentUser(st') == Some(u.(displayName := DisplayNameFor(u)))
    ensures SameExcept(st, st', UserKey)
  {
    WriteUser(st, u.(displayName := DisplayNameFor(u)))
  }

  /** `isAdmin()`: the stored user carries `isAdmin: true`; false when no user is stored. */
  function IsAdmin(st: Store): (r: bool)
    ensures r ==> CurrentUser(st).Some?
  {
    match CurrentUser(st)
    case None => false
    case Some(u) => u.isAdmin
  }

  /** Right after a user is stored, `isAdmin()` reports exactly that user's flag. */
  lemma IsAdminAfterWrite(st: Store, u: User)
    ensures IsAdmin(WriteUser(st, u)) == u.isAdmin
  {
  }

  /** Saving the admin user the sign-in service returns, as the source does it, leaves `isAdmin()` false. */
  lemma AdminSignInLosesFlag(st: Store, now: nat)
    ensures var u := AuthService.SignIn(AuthService.AdminEmail, AuthService.AdminPassword, now).value;
      u.isAdmin && !IsAdmin(SaveUserAsWritten(st, u))
  {
  }

  /** Signing out always ends admin rights. */
  lemma SignOutNotAdmin(st: Store)
    ensures !IsAdmin(AuthService.SignOut(st))
  {
  }

  /** `mockLogin`: the same three-way branch table as the sign-in service, stored directly. */
  function MockLogin(st: Store, email: string, password: string, now: nat): (st': Store)
    ensures SameExcept(st, st', UserKey)
    ensures CurrentUser(st').Some? && CurrentUser(st').value.email == email
    ensures IsAdmin(st') <==> AuthService.IsAdminLogin(email, password)
  {
    if AuthService.IsAdminLogin(email, password) then
      WriteUser(st, User("admin-uid", email, "Admin", true))
    else if AuthService.IsTestLogin(email, password) then
      WriteUser(st, User("user-uid", email, "Test User", false))
    else
      WriteUser(st, User("user-" + Decimal(now), email, BeforeAt(email), false))
  }

  /** The mock login stores exactly the user the sign-in service would return. */
  lemma MockLoginMatchesSignIn(st: Store, email: string, password: string, now: nat)
    ensures CurrentUser(MockLogin(st, email, password, now)) == Some(AuthService.SignIn(email, password, now).value)
  {
  }

  /** `mockSignup`: a user with uid `'new-user-' + Date.now()` and the e-mail's local part as name. */
  function MockSignup(st: Store, email: string, now: nat): (st': Store)
    ensures SameExcept(st, st', UserKey)
    ensures CurrentUser(st').Some?
    ensures var u := CurrentUser(st').value;
      && AuthService.StampedUid(u.uid, "new-user-", now)
      && u.email == email && u.displayName == BeforeAt(email) && !u.isAdmin
  {
    DecimalRoundTrip(now);
    var uid := "new-user-" + Decimal(now);
    assert uid[9..] == Decimal(now);
    WriteUser(st, User(uid, email, BeforeAt(email), false))
  }

  const MissingCredentials: string := "Please enter both email and password"

  /** What a form submission leaves behind: the store, and the error shown if it was rejected. */
  datatype Outcome = Outcome(store: Store, error: Option<string>)

  /**
   * `handleLogin` as the source writes it: a blank (after trimming) e-mail
   * or an empty password is rejected; otherwise the user is signed in,
   * through the auth service and `saveUserToLocalStorage` when the service
   * is present, and through the mock login when not. Only the mock path
   * keeps the admin flag.
   */
  function HandleLogin(st: Store, emailInput: string, password: string, serviceAvailable: bool, now: nat): (o: Outcome)
    ensures o.error.Some? <==> Trim(emailInput) == "" || password == ""
    ensures o.error.Some? ==> o.store == st && o.error.value == MissingCredentials
    ensures o.error.None? ==>
      && SameExcept(st, o.store, UserKey)
      && CurrentUser(o.store).Some? && CurrentUser(o.store).value.email == Trim(emailInput)
      && (IsAdmin(o.store) <==> AuthService.IsAdminLogin(Trim(emailInput), password) && !serviceAvailable)
  {
    var email := Trim(emailInput);
    if email == "" || password == "" then Outcome(st, Some(MissingCredentials))
    else if !serviceAvailable then Outcome(MockLogin(st, email, password, now), None)
    else match AuthService.SignIn(email, password, now)
      case Ok(u) => Outcome(SaveUserAsWritten(st, u), None)
      case Err(e) => Outcome(st, Some(e))
  }

  /** With the service present, the admin credentials log in without admin rights; the mock path grants them. */
  lemma AdminLoginPathsDiffer(st: Store, now: nat)
    ensures !IsAdmin(HandleLogin(st, AuthService.AdminEmail, AuthService.AdminPassword, true, now).store)
    ensures IsAdmin(HandleLogin(st, AuthService.AdminEmail, AuthService.AdminPassword, false, now).store)
  {
    assert Trim(AuthService.AdminEmail) == AuthService.AdminEmail by {
      assert !IsWhitespace(AuthService.AdminEmail[0]);
      assert !IsWhitespace(AuthService.AdminEmail[|AuthService.AdminEmail| - 1]);
    }
  }

  /** `handleLogin` with the corrected save, which keeps the admin flag on the service path. */
  function HandleLoginCorrected(st: Store, emailInput: string, password: string, serviceAvailable: bool, now: nat): (o: Outcome)
    ensures o.error.Some? <==> Trim(emailInput) == "" || password == ""
    ensures o.error.Some? ==> o.store == st && o.error.value == MissingCredentials
    ensures o.error.None? ==>
      && SameExcept(st, o.store, UserKey)
      && CurrentUser(o.store).Some? && CurrentUser(o.store).value.email == Trim(emailInput)
      && (IsAdmin(o.store) <==> AuthService.IsAdminLogin(Trim(emailInput), password))
  {
    var email := Trim(emailInput);
    if email == "" || password == "" then Outcome(st, Some(MissingCredentials))
    else if !serviceAvailable then Outcome(MockLogin(st, email, password, now), None)
    else match AuthService.SignIn(email, password, now)
      case Ok(u) => Outcome(SaveUser(st, u), None)
      case Err(e) => Outcome(st, Some(e))
  }

  /** With the corrected save, a login stores the same user whether or not the auth service is present. */
  lemma LoginPathsAgree(st: Store, emailInput: string, password: string, now: nat)
    ensures HandleLoginCorrected(st, emailInput, password, true, now) == HandleLoginCorrected(st, emailInput, password, false, now)
  {
    var email := Trim(emailInput);
    if email != "" && password != "" {
      var u := AuthService.SignIn(email, password, now).value;
      assert DisplayNameFor(u) == u.displayName || u.displayName == BeforeAt(email);
    }
  }

  /** The sign-up checks, tried in this order. */
  datatype SignupError = MissingField | PasswordMismatch | PasswordTooShort {
    function Message(): string {
      match this
      case MissingField => "Please fill in all fields"
      case PasswordMismatch => "Passwords do not match"
      case PasswordTooShort => "Password must be at least 6 characters"
    }
  }

  const MinPasswordLength: nat := 6

  /** The first sign-up check that fails, if any. */
  function SignupCheck(email: string, password: string, confirm: string): (r: Option<SignupError>)
    ensures r == Some(MissingField) <==> email == "" || password == "" || confirm == ""
    ensures r == Some(PasswordMismatch) <==> email != "" && password != "" && confirm != "" && password != confirm
    ensures r == Some(PasswordTooShort) <==>
      email != "" && password != "" && password == confirm && |password| < MinPasswordLength
    ensures r.None? <==> email != "" && password == confirm && |password| >= MinPasswordLength
  {
    if email == "" || password == "" || confirm == "" then Some(MissingField)
    else if password != confirm then Some(PasswordMismatch)
    else if |password| < MinPasswordLength then Some(PasswordTooShort)
    else None
  }

  /**
   * `handleSignup`: the checks run on the trimmed e-mail and the raw
   * passwords; a passing form signs the new user in through the auth
   * service when present and the mock sign-up when not.
   */
  function HandleSignup(st: Store, emailInput: string, password: string, confirm: string, serviceAvailable: bool, now: nat): (o: Outcome)
    ensures o.error.Some? <==> SignupCheck(Trim(emailInput), password, confirm).Some?
    ensures o.error.Some? ==> o.store == st && o.error.value == SignupCheck(Trim(emailInput), password, confirm).value.Message()
    ensures o.error.None? ==>
      && SameExcept(st, o.store, UserKey)
      && CurrentUser(o.store).Some?
      && var u := CurrentUser(o.store).value;
      && u.email == Trim(emailInput) && u.displayName == BeforeAt(Trim(emailInput)) && !u.isAdmin
      && AuthService.StampedUid(u.uid, if serviceAvailable then "user-" else "new-user-", now)
  {
    var email := Trim(emailInput);
    match SignupCheck(email, password, confirm)
    case Some(failure) => Outcome(st, Some(failure.Message()))
    case None =>
      if !serviceAvailable then Outcome(MockSignup(st, email, now), None)
      else match AuthService.SignUp(email, password, now)
        case Ok(u) => Outcome(SaveUserAsWritten(st, u), None)
        case Err(e) => Outcome(st, Some(e))
  }
}

=== FILE: auth_service.dfy ===
/**
 * The mock authentication provider: sign-up and sign-in always answer with a
 * user; sign-out deletes the stored user.
 */
module AuthService {
  import opened Results
  import opened Text
  import opened Model
  import opened Storage

  const AdminEmail: string := "admin@medico.com"
  const AdminPassword: string := "admin123"
  const TestEmail: string := "user@example.com"
  const TestPassword: string := "password123"

  predicate IsAdminLogin(email: string, password: string) {
    email == AdminEmail && password == AdminPassword
  }

  predicate IsTestLogin(email: string, password: string) {
    email == TestEmail && password == TestPassword
  }

  /** A uid of the form `prefix + String(now)`, read back as the timestamp it was made from. */
  predicate StampedUid(uid: string, prefix: string, now: nat) {
    && |prefix| < |uid| && uid[..|prefix|] == prefix
    && IsDigits(uid[|prefix|..]) && DigitsValue(uid[|prefix|..]) == now
  }

  /** `{uid: 'user-' + Date.now(), email, displayName: email.split('@')[0]}`. */
  function GeneratedUser(email: string, now: nat): (u: User)
    ensures StampedUid(u.uid, "user-", now)
    ensures u.email == email && u.displayName == BeforeAt(email) && !u.isAdmin
  {
    DecimalRoundTrip(now);
    var uid := "user-" + Decimal(now);
    assert uid[5..] == Decimal(now);
    User(uid, email, BeforeAt(email), false)
  }

  /** `firebaseAuth.signUp`: always succeeds with a generated user. */
  function SignUp(email: string, password: string, now: nat): (r: Result<User>)
    ensures r.Ok?
    ensures StampedUid(r.value.uid, "user-", now)
    ensures r.value.email == email && r.value.displayName == BeforeAt(email) && !r.value.isAdmin
  {
    Ok(GeneratedUser(email, now))
  }

  /**
   * `firebaseAuth.signIn`: the admin account, the demo account, and anyone
   * else, who is let in as a freshly generated user. It never answers with
   * an error.
   */
  function SignIn(email: string, password: string, now: nat): (r: Result<User>)
    ensures r.Ok? && r.value.email == email
    ensures r.value.isAdmin <==> IsAdminLogin(email, password)
    ensures IsAdminLogin(email, password) ==> r.value.uid == "admin-uid" && r.value.displayName == "Admin"
    ensures IsTestLogin(email, password) ==> r.value.uid == "user-uid" && r.value.displayName == "Test User"
    ensures !IsAdminLogin(email, password) && !IsTestLogin(email, password) ==>
      StampedUid(r.value.uid, "user-", now) && r.value.displayName == BeforeAt(email)
  {
    if IsAdminLogin(email, password) then Ok(User("admin-uid", email, "Admin", true))
    else if IsTestLogin(email, password) then Ok(User("user-uid", email, "Test User", false))
    else Ok(GeneratedUser(email, now))
  }

  /** A generated uid never collides with the two fixed accounts, nor with one made at another instant. */
  lemma GeneratedUidsDistinct(email1: string, email2: string, now1: nat, now2: nat)
    ensures GeneratedUser(email1, now1).uid != "admin-uid"
    ensures GeneratedUser(email1, now1).uid != "user-uid"
    ensures now1 != now2 ==> GeneratedUser(email1, now1).uid != GeneratedUser(email2, now2).uid
  {
    var u1 := GeneratedUser(email1, now1).uid;
    var u2 := GeneratedUser(email2, now2).uid;
    assert '0' <= u1[5] <= '9' by { assert u1[5] == u1[5..][0]; }
    assert "user-uid"[5] == 'u';
    if u1 == u2 {
      assert u1[5..] == u2[5..];
    }
  }

  /** `firebaseAuth.signOut`: the stored user is gone and every other key is untouched. */
  function SignOut(st: Store): (st': Store)
    ensures CurrentUser(st') == None
    ensures SameExcept(st, st', UserKey)
  {
    RemoveKey(st, UserKey)
  }
}

=== FILE: cart_items.dfy ===
/**
 * Cart logic shared by the shop pages and the cart page: first-match lookup
 * by id (`Array.prototype.find` / `findIndex`), removal by id (`filter`),
 * the badge count and the price total (`reduce`), and the cart invariant.
 */
module CartItems {
  import opened Results
  import opened Model

  predicate HasId(c: seq<CartItem>, id: string) {
    exists k :: 0 <= k < |c| && c[k].id == id
  }

  /** `findIndex(item => item.id === id)`: the first position holding `id`, if any. */
  function IndexOf(c: seq<CartItem>, id: string): (r: Option<nat>)
    ensures r.None? <==> !HasId(c, id)
    ensures r.Some? ==> r.value < |c| && c[r.value].id == id
    ensures r.Some? ==> forall k :: 0 <= k < r.value ==> c[k].id != id
  {
    if c == [] then None
    else if c[0].id == id then Some(0)
    else match IndexOf(c[1..], id)
      case None => None
      case Some(i) => Some(i + 1)
  }

  /** `filter(item => item.id !== id)`: every line for `id` goes, the rest stay in order. */
  function WithoutId(c: seq<CartItem>, id: string): (r: seq<CartItem>)
    ensures !HasId(r, id)
    ensures forall x :: x in r <==> x in c && x.id != id
    ensures |r| <= |c|
    ensures HasId(c, id) ==> |r| < |c|
    ensures !HasId(c, id) ==> r == c
  {
    if c == [] then []
    else if c[0].id == id then WithoutId(c[1..], id)
    else [c[0]] + WithoutId(c[1..], id)
  }

  /**
   * The filter works line by line on any cart, duplicates included: removing
   * from a concatenation removes from each part and keeps the parts in order,
   * and a single line is dropped exactly when it carries `id`.
   */
  lemma {:induction false} WithoutIdAppend(a: seq<CartItem>, b: seq<CartItem>, id: string)
    ensures WithoutId(a + b, id) == WithoutId(a, id) + WithoutId(b, id)
    ensures |a| == 1 ==> WithoutId(a, id) == if a[0].id == id then [] else a
  {
    if a == [] {
      assert a + b == b;
    } else {
      assert (a + b)[1..] == a[1..] + b;
      WithoutIdAppend(a[1..], b, id);
      if |a| == 1 {
        assert a[1..] == [];
      }
    }
  }

  /** No two lines share an id. */
  predicate UniqueIds(c: seq<CartItem>) {
    forall i, j :: 0 <= i < j < |c| ==> c[i].id != c[j].id
  }

  /** The cart invariant: ids unique and every quantity at least 1. */
  predicate Valid(c: seq<CartItem>) {
    UniqueIds(c) && forall k :: 0 <= k < |c| ==> c[k].quantity >= 1
  }

  /** On a cart with unique ids, removing an id that sits at position `i` splices out exactly that line. */
  lemma WithoutIdSplice(c: seq<CartItem>, id: string, i: nat)
    requires UniqueIds(c) && i < |c| && c[i].id == id
    ensures WithoutId(c, id) == c[..i] + c[i + 1..]
  {
    var pre, post := c[..i], c[i + 1..];
    assert c == pre + ([c[i]] + post);
    assert !HasId(pre, id) by {
      forall k | 0 <= k < |pre| ensures pre[k].id != id {
        assert pre[k] == c[k];
      }
    }
    assert !HasId(post, id) by {
      forall k | 0 <= k < |post| ensures post[k].id != id {
        assert post[k] == c[i + 1 + k];
      }
    }
    WithoutIdAppend(pre, [c[i]] + post, id);
    WithoutIdAppend([c[i]], post, id);
  }

  /** Removal by id, whatever the cart: on unique ids it is the splice at the id's position. */
  lemma RemovalSplices(c: seq<CartItem>, id: string)
    ensures UniqueIds(c) && HasId(c, id) ==>
      var i := IndexOf(c, id).value; WithoutId(c, id) == c[..i] + c[i + 1..]
  {
    if UniqueIds(c) && HasId(c, id) {
      WithoutIdSplice(c, id, IndexOf(c, id).value);
    }
  }

  /** Splicing out one line keeps the invariant. */
  lemma SpliceValid(c: seq<CartItem>, i: nat)
    requires Valid(c) && i < |c|
    ensures Valid(c[..i] + c[i + 1..])
  {
    var r := c[..i] + c[i + 1..];
    forall a | 0 <= a < |r| ensures r[a] == c[if a < i then a else a + 1] {
    }
    forall a, b | 0 <= a < b < |r| ensures r[a].id != r[b].id {
      var a' := if a < i then a else a + 1;
      var b' := if b < i then b else b + 1;
      assert r[a] == c[a'] && r[b] == c[b'];
    }
  }

  /** Removing an id keeps the invariant. */
  lemma WithoutIdValid(c: seq<CartItem>, id: string)
    requires Valid(c)
    ensures Valid(WithoutId(c, id))
  {
    match IndexOf(c, id)
    case None =>
    case Some(i) =>
      WithoutIdSplice(c, id, i);
      SpliceValid(c, i);
  }

  /** Replacing one line by a line with the same id keeps ids unique. */
  lemma ReplaceKeepsUnique(c: seq<CartItem>, i: nat, x: CartItem)
    requires UniqueIds(c) && i < |c| && x.id == c[i].id
    ensures UniqueIds(c[i := x])
  {
  }

  /** The badge number: the sum of the quantities. */
  function ItemCount(c: seq<CartItem>): (n: int)
    ensures (forall k :: 0 <= k < |c| ==> c[k].quantity >= 1) ==> n >= |c|
  {
    if c == [] then 0 else c[0].quantity + ItemCount(c[1..])
  }

  /** The cart total in cents: the sum of price times quantity. */
  function Subtotal(c: seq<CartItem>): int {
    if c == [] then 0 else c[0].price * c[0].quantity + Subtotal(c[1..])
  }

  /** No line has a negative price or a negative quantity. */
  predicate NonNegativeLines(c: seq<CartItem>) {
    forall k :: 0 <= k < |c| ==> c[k].price >= 0 && c[k].quantity >= 0
  }

  /** A cart of non-negative prices and quantities has a non-negative count and total. */
  lemma {:induction false} SumsNonNegative(c: seq<CartItem>)
    requires NonNegativeLines(c)
    ensures ItemCount(c) >= 0 && Subtotal(c) >= 0
  {
    if c != [] {
      assert NonNegativeLines(c[1..]) by {
        forall k | 0 <= k < |c| - 1 ensures c[1..][k].price >= 0 && c[1..][k].quantity >= 0 {
          assert c[1..][k] == c[k + 1];
        }
      }
      SumsNonNegative(c[1..]);
      assert c[0].price * c[0].quantity >= 0;
    }
  }

  lemma {:induction false} SumsAppend(a: seq<CartItem>, b: seq<CartItem>)
    ensures ItemCount(a + b) == ItemCount(a) + ItemCount(b)
    ensures Subtotal(a + b) == Subtotal(a) + Subtotal(b)
  {
    if a == [] {
      assert a + b == b;
    } else {
      assert (a + b)[1..] == a[1..] + b;
      SumsAppend(a[1..], b);
    }
  }

  /** Replacing line `i` moves the count and the total by exactly that line's difference. */
  lemma {:induction false} SumsReplace(c: seq<CartItem>, i: nat, x: CartItem)
    requires i < |c|
    ensures ItemCount(c[i := x]) == ItemCount(c) - c[i].quantity + x.quantity
    ensures Subtotal(c[i := x]) == Subtotal(c) - c[i].price * c[i].quantity + x.price * x.quantity
  {
    if i > 0 {
      assert c[i := x][1..] == c[1..][i - 1 := x];
      SumsReplace(c[1..], i - 1, x);
    }
  }

  /** Splicing out line `i` lowers the count and the total by that line's share. */
  lemma {:induction false} SumsSplice(c: seq<CartItem>, i: nat)
    requires i < |c|
    ensures ItemCount(c[..i] + c[i + 1..]) == ItemCount(c) - c[i].quantity
    ensures Subtotal(c[..i] + c[i + 1..]) == Subtotal(c) - c[i].price * c[i].quantity
  {
    var r := c[..i] + c[i + 1..];
    if i == 0 {
      assert r == c[1..];
    } else {
      var t := c[1..];
      assert r[0] == c[0] && r[1..] == t[..i - 1] + t[i..];
      SumsSplice(t, i - 1);
    }
  }

  /** A one-line cart counts that line's quantity and its price times quantity. */
  lemma SumsSingle(x: CartItem)
    ensures ItemCount([x]) == x.quantity && Subtotal([x]) == x.price * x.quantity
  {
    assert [x][1..] == [];
  }

  /** What `updateCartCount` shows: the count, and whether the badge is visible. */
  datatype Badge = Badge(count: int, shown: bool)

  /** On a valid cart the badge is visible exactly when the cart has lines, and it counts them all. */
  function CartBadge(c: seq<CartItem>): (b: Badge)
    ensures b.count == ItemCount(c)
    ensures b.shown <==> b.count > 0
    ensures Valid(c) ==> (b.shown <==> |c| > 0)
    ensures Valid(c) ==> b.count >= |c|
  {
    var n := ItemCount(c);
    Badge(n, n > 0)
  }
}

=== FILE: cart_page.dfy ===
/**
 * The cart page: every operation reads the cart from the `medicineCart` key,
 * changes it and writes it back; the totals panel and the checkout button.
 */
module CartPage {
  import opened Results
  import opened Model
  import opened Storage
  import opened CartItems

  /** `removeFromCart` of the cart page: filter the stored cart and write it back. */
  function RemoveFromCart(st: Store, id: string): (st': Store)
    ensures CartOf(st') == WithoutId(CartOf(st), id)
    ensures !HasId(CartOf(st'), id)
    ensures !HasId(CartOf(st), id) ==> CartOf(st') == CartOf(st)
    ensures UniqueIds(CartOf(st)) && HasId(CartOf(st), id) ==>
      var c, i := CartOf(st), IndexOf(CartOf(st), id).value; CartOf(st') == c[..i] + c[i + 1..]
    ensures SameExcept(st, st', CartKey)
  {
    var c := CartOf(st);
    RemovalSplices(c, id);
    WriteCart(st, WithoutId(c, id))
  }

  /**
   * `updateQuantity` of the cart page (by a delta): an absent id leaves the
   * store as it was; a line whose quantity would drop to 0 or below is
   * removed; otherwise only that line's quantity moves, by `change`.
   */
  function UpdateQuantity(st: Store, id: string, change: int): (st': Store)
    ensures !HasId(CartOf(st), id) ==> st' == st
    ensures SameExcept(st, st', CartKey)
    ensures HasId(CartOf(st), id) ==>
      var c, i := CartOf(st), IndexOf(CartOf(st), id).value;
      if c[i].quantity + change <= 0 then
        CartOf(st') == WithoutId(c, id) && (UniqueIds(c) ==> CartOf(st') == c[..i] + c[i + 1..])
      else
        |CartOf(st')| == |c| &&
        forall k :: 0 <= k < |c| ==>
          CartOf(st')[k] == if k == i then c[i].(quantity := c[i].quantity + change) else c[k]
  {
    var c := CartOf(st);
    match IndexOf(c, id)
    case None => st
    case Some(i) =>
      if c[i].quantity + change <= 0 then RemoveFromCart(st, id)
      else WriteCart(st, c[i := c[i].(quantity := c[i].quantity + change)])
  }

  /** Removing a line keeps the stored cart valid. */
  lemma RemoveFromCartValid(st: Store, id: string)
    requires Valid(CartOf(st))
    ensures Valid(CartOf(RemoveFromCart(st, id)))
  {
    WithoutIdValid(CartOf(st), id);
  }

  /** Changing a quantity by any delta keeps the stored cart valid: no quantity at or below 0 is ever written. */
  lemma UpdateQuantityValid(st: Store, id: string, change: int)
    requires Valid(CartOf(st))
    ensures Valid(CartOf(UpdateQuantity(st, id, change)))
  {
    var c := CartOf(st);
    match IndexOf(c, id)
    case None =>
    case Some(i) =>
      if c[i].quantity + change <= 0 {
        RemoveFromCartValid(st, id);
      } else {
        ReplaceKeepsUnique(c, i, c[i].(quantity := c[i].quantity + change));
      }
  }

  /** Decreasing a line by its whole quantity removes it from a valid cart. */
  lemma DecreaseByQuantityRemoves(st: Store, id: string)
    requires Valid(CartOf(st)) && HasId(CartOf(st), id)
    ensures var q := CartOf(st)[IndexOf(CartOf(st), id).value].quantity;
      CartOf(UpdateQuantity(st, id, -q)) == WithoutId(CartOf(st), id)
  {
    WithoutIdSplice(CartOf(st), id, IndexOf(CartOf(st), id).value);
  }

  /** Flat shipping, in cents. */
  const Shipping: int := 500

  /** The totals panel: subtotal, total and whether checkout is enabled. */
  datatype Summary = Summary(subtotal: int, total: int, checkoutEnabled: bool)

  /**
   * `displayCart`'s totals: the empty-cart branch shows 0 and the shipping
   * charge with checkout disabled; otherwise the sum of price times quantity
   * plus shipping, with checkout enabled.
   */
  function Summarize(c: seq<CartItem>): (s: Summary)
    ensures s.subtotal == Subtotal(c)
    ensures s.total == s.subtotal + Shipping
    ensures s.checkoutEnabled <==> |c| > 0
  {
    if |c| == 0 then Summary(0, 500, false)
    else
      var subtotal := Subtotal(c);
      Summary(subtotal, subtotal + Shipping, true)
  }

  /** Two lines at 5.99 x 2 and 6.49 x 1 give a subtotal of 18.47 and a total of 23.47. */
  lemma SummarizeExample()
    ensures Summarize([CartItem("med001", "Paracetamol", 599, None, 2), CartItem("med002", "Ibuprofen", 649, None, 1)])
         == Summary(1847, 2347, true)
  {
    var c := [CartItem("med001", "Paracetamol", 599, None, 2), CartItem("med002", "Ibuprofen", 649, None, 1)];
    assert c[1..][1..] == [];
  }

  /** `updateCartCount` of the cart page: the badge for the stored cart. */
  function StoredBadge(st: Store): (b: Badge)
    ensures b.count == ItemCount(CartOf(st))
    ensures b.shown <==> b.count > 0
    ensures Valid(CartOf(st)) ==> (b.shown <==> CartOf(st) != [])
  {
    CartBadge(CartOf(st))
  }
}

=== FILE: checkout.dfy ===
/**
 * Order submission on the cart page: assemble the order from the form and
 * the stored cart, save it through the document service when one is
 * present and to the local `orders` list otherwise (or when the service
 * reports an error), then clear the cart.
 */
module Checkout {
  import opened Results
  import opened Text
  import opened Model
  import opened Storage
  import opened CartItems
  import CartPage
  import DocumentStore

  /** The document service as the submit handler finds it. */
  datatype Backend =
    | NoBackend       // `typeof firebase === 'undefined'` or no `firebase.firestore`
    | BackendAccepts  // `addDocument` calls its success callback (the mock always does)
    | BackendRejects  // `addDocument` calls its error callback

  datatype CheckoutForm = CheckoutForm(customer: Customer, paymentMethod: string, notes: string)

  /** The order assembled on submit: the stored cart as items, the displayed total, status Pending. */
  function AssembleOrder(st: Store, form: CheckoutForm, date: string): (o: Order)
    ensures o.items == CartOf(st) && o.status == Pending && o.userId == None
    ensures o.total == Subtotal(CartOf(st)) + CartPage.Shipping
    ensures o.customer == form.customer && o.paymentMethod == form.paymentMethod && o.notes == form.notes
    ensures o.date == date
  {
    Order(form.customer, form.paymentMethod, form.notes, CartOf(st), CartPage.Summarize(CartOf(st)).total, date, Pending, None)
  }

  /** `orderData.userId = user.uid`, where a missing user leaves the field undefined. */
  function AttachUser(o: Order, st: Store): (o': Order)
    ensures o'.userId.Some? <==> CurrentUser(st).Some?
    ensures CurrentUser(st).Some? ==> o'.userId.value == CurrentUser(st).value.uid
    ensures o' == o.(userId := o'.userId)
  {
    match CurrentUser(st)
    case Some(u) => o.(userId := Some(u.uid))
    case None => o.(userId := None)
  }

  /** `'ORD-' + Math.random().toString(36).substr(2, 9).toUpperCase()`, from the digits after "0.". */
  function LocalOrderId(digits: string): (id: string)
    ensures 4 <= |id| <= 13 && id[..4] == "ORD-"
    ensures forall k :: 4 <= k < |id| ==> !('a' <= id[k] <= 'z')
  {
    "ORD-" + ToUpper(if |digits| <= 9 then digits else digits[..9])
  }

  datatype Submitted = Submitted(store: Store, orderId: string)

  /** Keys other than the orders list and the cart. */
  predicate OnlyOrdersAndCart(a: Store, b: Store) {
    a - {OrdersKey, CartKey} == b - {OrdersKey, CartKey}
  }

  /**
   * `saveOrderToLocalStorage`: give the order a local id, append it to
   * `orders`, and remove the cart.
   */
  function SaveOrderLocally(st: Store, o: Order, digits: string): (s: Submitted)
    ensures s.orderId == LocalOrderId(digits)
    ensures Collection(s.store, OrdersKey) == Collection(st, OrdersKey) + [OrderFields(o)["id" := Str(s.orderId)]]
    ensures CartKey !in s.store
    ensures OnlyOrdersAndCart(st, s.store)
  {
    var id := LocalOrderId(digits);
    var orders := Collection(st, OrdersKey) + [OrderFields(o)["id" := Str(id)]];
    var written := WriteCollection(st, OrdersKey, orders);
    var cleared := RemoveKey(written, CartKey);
    OrdersThenCart(st, written, cleared);
    Submitted(cleared, id)
  }

  /** Writing `orders` and then removing the cart touches no other key. */
  lemma OrdersThenCart(a: Store, b: Store, c: Store)
    requires SameExcept(a, b, OrdersKey) && SameExcept(b, c, CartKey)
    ensures OnlyOrdersAndCart(a, c)
  {
    assert a - {OrdersKey, CartKey} == (a - {OrdersKey}) - {CartKey};
    assert b - {OrdersKey, CartKey} == (b - {OrdersKey}) - {CartKey};
    assert b - {OrdersKey, CartKey} == (b - {CartKey}) - {OrdersKey};
    assert c - {OrdersKey, CartKey} == (c - {CartKey}) - {OrdersKey};
  }

  /**
   * The order document written on either path: it carries `id`, and apart
   * from `id` and the `createdAt` stamp it is exactly the stringified order.
   */
  predicate StoredOrder(d: Document, id: string, o: Order) {
    && "id" in d && d["id"] == Str(id)
    && d - {"id", "createdAt"} == OrderFields(o)
  }

  /** A stored order document parses back to the order it was written from. */
  lemma StoredOrderParses(d: Document, id: string, o: Order)
    requires StoredOrder(d, id, o)
    ensures OrderOf(d) == Some(o)
  {
    var f := OrderFields(o);
    forall k | k in f ensures k in d && d[k] == f[k] {
      assert k != "id" && k != "createdAt";
      assert k in d - {"id", "createdAt"};
    }
    assert "userId" in d <==> "userId" in f by {
      if "userId" in d {
        assert "userId" in d - {"id", "createdAt"};
      }
    }
    OrderRoundTrip(o);
  }

  /** The local path's document: the order with its local id, and no `createdAt`. */
  lemma LocalDocument(o: Order, id: string)
    ensures StoredOrder(OrderFields(o)["id" := Str(id)], id, o)
    ensures "createdAt" !in OrderFields(o)["id" := Str(id)]
  {
    var d, f := OrderFields(o)["id" := Str(id)], OrderFields(o);
    assert d - {"id", "createdAt"} == f by {
      assert (d - {"id", "createdAt"}).Keys == f.Keys;
    }
  }

  /** The remote path's document: the order stamped with the document id and the save time. */
  lemma RemoteDocument(o: Order, id: string, savedAt: string)
    ensures StoredOrder(DocumentStore.Stamped(OrderFields(o), id, savedAt), id, o)
    ensures DocumentStore.Stamped(OrderFields(o), id, savedAt)["createdAt"] == Str(savedAt)
  {
    var d, f := DocumentStore.Stamped(OrderFields(o), id, savedAt), OrderFields(o);
    assert d - {"id", "createdAt"} == f by {
      assert (d - {"id", "createdAt"}).Keys == f.Keys;
    }
  }

  /**
   * `orders` in `after` is `orders` in `before` plus one document, stored
   * under `id` and holding `o`, with a `createdAt` stamp exactly when
   * `stamped`.
   */
  predicate Recorded(before: Store, after: Store, id: string, o: Order, stamped: bool) {
    var b, a := Collection(before, OrdersKey), Collection(after, OrdersKey);
    && |a| == |b| + 1
    && a[..|b|] == b
    && StoredOrder(a[|b|], id, o)
    && ("createdAt" in a[|b|] <==> stamped)
  }

  /** The local path records the order under its local id, without a stamp. */
  lemma LocalRecorded(st: Store, o: Order, digits: string)
    ensures var s := SaveOrderLocally(st, o, digits); Recorded(st, s.store, s.orderId, o, false)
  {
    LocalDocument(o, LocalOrderId(digits));
  }

  /** The remote path records the stamped order under the document id. */
  lemma RemoteRecorded(st: Store, o: Order, digits: string, savedAt: string)
    ensures var a := DocumentStore.AddDocument(st, OrdersKey, OrderFields(o), digits, savedAt);
      Recorded(st, RemoveKey(a.store, CartKey), a.id, o, true)
  {
    RemoteDocument(o, DocumentStore.NewDocId(digits), savedAt);
  }

  /**
   * The submit handler: exactly one of the two paths stores the order, and
   * the cart is removed afterwards. A rejected remote save falls back to the
   * local path with the user id already attached.
   */
  function SubmitOrder(st: Store, form: CheckoutForm, date: string, backend: Backend,
                       docDigits: string, localDigits: string, savedAt: string): (s: Submitted)
    ensures Recorded(st, s.store, s.orderId,
      Order(form.customer, form.paymentMethod, form.notes, CartOf(st), Subtotal(CartOf(st)) + CartPage.Shipping,
            date, Pending, if !backend.NoBackend? && CurrentUser(st).Some? then Some(CurrentUser(st).value.uid) else None),
      backend.BackendAccepts?)
    ensures CartKey !in s.store
    ensures OnlyOrdersAndCart(st, s.store)
    ensures backend.BackendAccepts? ==> s.orderId == DocumentStore.NewDocId(docDigits)
    ensures !backend.BackendAccepts? ==> s.orderId == LocalOrderId(localDigits)
  {
    var order := AssembleOrder(st, form, date);
    match backend
    case NoBackend =>
      LocalRecorded(st, order, localDigits);
      SaveOrderLocally(st, order, localDigits)
    case BackendRejects =>
      var withUser := AttachUser(order, st);
      LocalRecorded(st, withUser, localDigits);
      SaveOrderLocally(st, withUser, localDigits)
    case BackendAccepts =>
      var withUser := AttachUser(order, st);
      var a := DocumentStore.AddDocument(st, OrdersKey, OrderFields(withUser), docDigits, savedAt);
      RemoteRecorded(st, withUser, docDigits, savedAt);
      var cleared := RemoveKey(a.store, CartKey);
      OrdersThenCart(st, a.store, cleared);
      Submitted(cleared, a.id)
  }

  /** Whichever path runs, the order id is non-empty and the cart reads as empty afterwards. */
  lemma SubmitClearsCart(st: Store, form: CheckoutForm, date: string, backend: Backend,
                         docDigits: string, localDigits: string, savedAt: string)
    ensures var s := SubmitOrder(st, form, date, backend, docDigits, localDigits, savedAt);
      |s.orderId| > 0 && CartOf(s.store) == [] && CurrentUser(s.store) == CurrentUser(st)
  {
    var s := SubmitOrder(st, form, date, backend, docDigits, localDigits, savedAt);
    assert UserKey in st - {OrdersKey, CartKey} <==> UserKey in st;
    assert UserKey in s.store - {OrdersKey, CartKey} <==> UserKey in s.store;
  }
}

=== FILE: document_store.dfy ===
/**
 * The mock document service: named collections, each an ordered list of
 * documents kept under its own storage key. The calls that can fail
 * (`GetDocument`, `UpdateDocument`, `DeleteDocument`) return a `Result`
 * whose `Err` carries the message the error callback would get; `AddDocument`
 * and `GetCollection` always succeed and return their value directly.
 */
module DocumentStore {
  import opened Results
  import opened Model
  import opened Storage

  const NotFound: string := "Document does not exist"

  /** `item.id === docId`. */
  predicate HasDocId(d: Document, id: string) {
    "id" in d && d["id"] == Str(id)
  }

  predicate Contains(docs: seq<Document>, id: string) {
    exists k :: 0 <= k < |docs| && HasDocId(docs[k], id)
  }

  /** `findIndex(item => item.id === docId)`. */
  function DocIndex(docs: seq<Document>, id: string): (r: Option<nat>)
    ensures r.None? <==> !Contains(docs, id)
    ensures r.Some? ==> r.value < |docs| && HasDocId(docs[r.value], id)
    ensures r.Some? ==> forall k :: 0 <= k < r.value ==> !HasDocId(docs[k], id)
  {
    if docs == [] then None
    else if HasDocId(docs[0], id) then Some(0)
    else match DocIndex(docs[1..], id)
      case None => None
      case Some(i) => Some(i + 1)
  }

  /**
   * `'doc-' + Math.random().toString(36).substr(2, 9)`: `digits` is the
   * base-36 text after the leading "0.", of which nine characters are kept.
   */
  function NewDocId(digits: string): (id: string)
    ensures 4 <= |id| <= 13 && id[..4] == "doc-"
  {
    "doc-" + (if |digits| <= 9 then digits else digits[..9])
  }

  /** The document `addDocument` stores: the id, then the caller's fields, then `createdAt`. */
  function Stamped(data: Document, docId: string, now: string): (d: Document)
    ensures d.Keys == data.Keys + {"id", "createdAt"}
    ensures d["createdAt"] == Str(now)
    ensures d["id"] == if "id" in data then data["id"] else Str(docId)
    ensures forall k :: k in data && k != "createdAt" ==> d[k] == data[k]
  {
    map["id" := Str(docId)] + data + map["createdAt" := Str(now)]
  }

  datatype Added = Added(store: Store, id: string)

  /**
   * `addDocument`: appends one stamped document to the collection, leaves
   * the earlier documents and every other key alone, and reports the
   * generated id.
   */
  function AddDocument(st: Store, name: string, data: Document, digits: string, now: string): (a: Added)
    ensures a.id == NewDocId(digits)
    ensures var before, after := Collection(st, name), Collection(a.store, name);
      && |after| == |before| + 1
      && after[..|before|] == before
      && after[|before|] == Stamped(data, a.id, now)
    ensures SameExcept(st, a.store, name)
  {
    var docId := NewDocId(digits);
    Added(WriteCollection(st, name, Collection(st, name) + [Stamped(data, docId, now)]), docId)
  }

  /** `getCollection`: the stored list, or the empty list for a collection never written. */
  function GetCollection(st: Store, name: string): (docs: seq<Document>)
    ensures name !in st ==> docs == []
    ensures name in st && st[name].DocsEntry? ==> docs == st[name].docs
  {
    Collection(st, name)
  }

  /** `getDocument`: the first document with the id, or the not-found error. */
  function GetDocument(st: Store, name: string, id: string): (r: Result<Document>)
    ensures r.Err? <==> !Contains(GetCollection(st, name), id)
    ensures r.Err? ==> r.message == NotFound
    ensures r.Ok? ==> HasDocId(r.value, id)
    ensures var docs := GetCollection(st, name);
      forall i :: 0 <= i < |docs| && HasDocId(docs[i], id) && (forall k :: 0 <= k < i ==> !HasDocId(docs[k], id))
                  ==> r == Ok(docs[i])
  {
    var docs := GetCollection(st, name);
    match DocIndex(docs, id)
    case None => Err(NotFound)
    case Some(i) => Ok(docs[i])
  }

  /** The shallow merge `{...old, ...data, updatedAt}`. */
  function Merged(prior: Document, data: Document, now: string): (d: Document)
    ensures d.Keys == prior.Keys + data.Keys + {"updatedAt"}
    ensures d["updatedAt"] == Str(now)
    ensures forall k :: k in data && k != "updatedAt" ==> d[k] == data[k]
    ensures forall k :: k in prior && k !in data && k != "updatedAt" ==> d[k] == prior[k]
  {
    prior + data + map["updatedAt" := Str(now)]
  }

  /**
   * `updateDocument`: merges `data` into the first document with the id,
   * leaving the length and every other document as they were; the
   * not-found error when no document has the id.
   */
  function UpdateDocument(st: Store, name: string, id: string, data: Document, now: string): (r: Result<Store>)
    ensures r.Err? <==> !Contains(GetCollection(st, name), id)
    ensures r.Err? ==> r.message == NotFound
    ensures r.Ok? ==>
      var before, after := GetCollection(st, name), GetCollection(r.value, name);
      var i := DocIndex(before, id).value;
      && SameExcept(st, r.value, name)
      && |after| == |before|
      && after[i] == Merged(before[i], data, now)
      && forall k :: 0 <= k < |before| && k != i ==> after[k] == before[k]
  {
    var docs := GetCollection(st, name);
    match DocIndex(docs, id)
    case None => Err(NotFound)
    case Some(i) => Ok(WriteCollection(st, name, docs[i := Merged(docs[i], data, now)]))
  }

  /**
   * `deleteDocument`: splices out the first document with the id, keeping
   * the others in order; the not-found error when no document has the id.
   */
  function DeleteDocument(st: Store, name: string, id: string): (r: Result<Store>)
    ensures r.Err? <==> !Contains(GetCollection(st, name), id)
    ensures r.Err? ==> r.message == NotFound
    ensures r.Ok? ==>
      var before, after := GetCollection(st, name), GetCollection(r.value, name);
      var i := DocIndex(before, id).value;
      && SameExcept(st, r.value, name)
      && |after| == |before| - 1
      && after[..i] == before[..i]
      && after[i..] == before[i + 1..]
  {
    var docs := GetCollection(st, name);
    match DocIndex(docs, id)
    case None => Err(NotFound)
    case Some(i) => Ok(WriteCollection(st, name, docs[..i] + docs[i + 1..]))
  }

  /** A freshly added document whose data carries no `id` is found again under the reported id. */
  lemma AddThenGet(st: Store, name: string, data: Document, digits: string, now: string)
    requires "id" !in data && !Contains(GetCollection(st, name), NewDocId(digits))
    ensures var a := AddDocument(st, name, data, digits, now);
      GetDocument(a.store, name, a.id) == Ok(Stamped(data, a.id, now))
  {
    var a := AddDocument(st, name, data, digits, now);
    var before := GetCollection(st, name);
    var after := GetCollection(a.store, name);
    forall k | 0 <= k < |before| ensures !HasDocId(after[k], a.id) {
      assert after[k] == before[k];
    }
  }

  /** Deleting a freshly added document (data without `id`, id not yet used) restores the collection. */
  lemma AddThenDelete(st: Store, name: string, data: Document, digits: string, now: string)
    requires "id" !in data && !Contains(GetCollection(st, name), NewDocId(digits))
    ensures var a := AddDocument(st, name, data, digits, now);
      var r := DeleteDocument(a.store, name, a.id);
      r.Ok? && GetCollection(r.value, name) == GetCollection(st, name) && SameExcept(st, r.value, name)
  {
    var a := AddDocument(st, name, data, digits, now);
    var before := GetCollection(st, name);
    var after := GetCollection(a.store, name);
    forall k | 0 <= k < |before| ensures !HasDocId(after[k], a.id) {
      assert after[k] == before[k];
    }
    assert HasDocId(after[|before|], a.id);
    assert DocIndex(after, a.id) == Some(|before|);
  }

  /** After an update whose data carries no `id`, reading the id gives the merged document. */
  lemma UpdateThenGet(st: Store, name: string, id: string, data: Document, now: string)
    requires "id" !in data && Contains(GetCollection(st, name), id)
    ensures var r := UpdateDocument(st, name, id, data, now);
      var i := DocIndex(GetCollection(st, name), id).value;
      r.Ok? && GetDocument(r.value, name, id) == Ok(Merged(GetCollection(st, name)[i], data, now))
  {
    var before := GetCollection(st, name);
    var i := DocIndex(before, id).value;
    var r := UpdateDocument(st, name, id, data, now);
    var after := GetCollection(r.value, name);
    assert HasDocId(after[i], id);
    forall k | 0 <= k < i ensures !HasDocId(after[k], id) {
      assert after[k] == before[k];
    }
  }
}

=== FILE: interactions.dfy ===
/**
 * The drug-interaction checker: a fixed catalog of medicines, a fixed list of
 * interaction records, an unordered-pair lookup and the selection check that
 * guards it.
 */
module Interactions {
  import opened Results

  datatype Severity = Mild | Moderate | Severe | Beneficial

  datatype CatalogEntry = CatalogEntry(id: string, name: string)

  datatype Interaction = Interaction(
    medicine1: string,
    medicine2: string,
    severity: Severity,
    description: string,
    recommendation: string)

  /** The catalog the interaction checker offers. */
  const Catalog: seq<CatalogEntry> :=
    [
      CatalogEntry("med001", "Paracetamol"),
      CatalogEntry("med002", "Ibuprofen"),
      CatalogEntry("med003", "Amoxicillin"),
      CatalogEntry("med004", "Cetirizine"),
      CatalogEntry("med005", "Omeprazole"),
      CatalogEntry("med006", "Aspirin"),
      CatalogEntry("med007", "Loratadine"),
      CatalogEntry("med008", "Metformin"),
      CatalogEntry("med009", "Atorvastatin"),
      CatalogEntry("med010", "Vitamin D3"),
      CatalogEntry("med011", "Diazepam"),
      CatalogEntry("med012", "Salbutamol Inhaler"),
      CatalogEntry("med014", "Antacid Tablets"),
      CatalogEntry("med015", "Hydrocortisone Cream"),
      CatalogEntry("med016", "Acetylcysteine")
    ]

  /** The known interactions, in the order the lookup scans them. */
  const Table: seq<Interaction> :=
    [
      Interaction("med001", "med006", Moderate,
        "Combining Paracetamol with Aspirin may increase the risk of side effects. While occasional use of both is generally considered safe, regular long-term use together should be monitored by a healthcare provider.",
        "If you need pain relief, consider using just one of these medications. If you must use both, discuss with your doctor or pharmacist about proper dosing and timing."),
      Interaction("med002", "med006", Severe,
        "Using Ibuprofen with Aspirin may increase the risk of gastrointestinal bleeding and ulcers. Both are NSAIDs and their combined effect can damage the stomach lining.",
        "Avoid using these medications together. If you've been prescribed both by a doctor, follow their guidance exactly and report any stomach pain immediately."),
      Interaction("med003", "med004", Mild,
        "There are typically no significant interactions between Amoxicillin (antibiotic) and Cetirizine (antihistamine). They can generally be taken together safely.",
        "You can typically take both medications as prescribed. However, always inform your doctor about all medicines you are taking."),
      Interaction("med005", "med014", Moderate,
        "Antacids can decrease the absorption of Omeprazole when taken simultaneously, making it less effective.",
        "Take Omeprazole at least 30 minutes to 1 hour before taking any antacid for best effectiveness."),
      Interaction("med002", "med011", Moderate,
        "Ibuprofen may increase the effects of Diazepam, potentially causing increased drowsiness, reduced coordination, and cognitive impairment.",
        "Use caution when combining these medications. Consider reducing the dosage of either medication and avoid activities requiring mental alertness until you know how this combination affects you.")
    ]

  /** The record concerns the pair of `a` and `b`, in either order. */
  predicate Pairs(r: Interaction, a: string, b: string) {
    (r.medicine1 == a && r.medicine2 == b) || (r.medicine1 == b && r.medicine2 == a)
  }

  /** A record pairs `a` with `b` exactly when its two ids form the set of `a` and `b`. */
  lemma PairsAsSets(r: Interaction, a: string, b: string)
    ensures Pairs(r, a, b) <==> {r.medicine1, r.medicine2} == {a, b}
  {
    if {r.medicine1, r.medicine2} == {a, b} {
      assert a in {r.medicine1, r.medicine2} && b in {r.medicine1, r.medicine2};
      assert r.medicine1 in {a, b} && r.medicine2 in {a, b};
    }
  }

  /** `interactions.find(...)`: the first record for the unordered pair, if any. */
  function FindInteraction(t: seq<Interaction>, a: string, b: string): (r: Option<Interaction>)
    ensures r.None? <==> forall k :: 0 <= k < |t| ==> !Pairs(t[k], a, b)
    ensures r.Some? ==> Pairs(r.value, a, b)
    ensures forall i :: 0 <= i < |t| && Pairs(t[i], a, b) && (forall k :: 0 <= k < i ==> !Pairs(t[k], a, b))
                ==> r == Some(t[i])
  {
    if t == [] then None
    else if Pairs(t[0], a, b) then Some(t[0])
    else
      var r := FindInteraction(t[1..], a, b);
      assert forall i :: 1 <= i < |t| ==> t[i] == t[1..][i - 1];
      r
  }

  /** The lookup does not depend on the order of the two ids. */
  lemma {:induction false} FindInteractionSymmetric(t: seq<Interaction>, a: string, b: string)
    ensures FindInteraction(t, a, b) == FindInteraction(t, b, a)
  {
    if t != [] && !Pairs(t[0], a, b) {
      FindInteractionSymmetric(t[1..], a, b);
    }
  }

  /** What `getMedicineById` yields: a catalog entry, or the placeholder. */
  datatype Shown = Listed(medicine: CatalogEntry) | UnknownMedicine {
    function Name(): string {
      match this
      case Listed(m) => m.name
      case UnknownMedicine => "Unknown Medicine"
    }
  }

  /** `getMedicineById`: the first catalog entry with `id`, or the "Unknown Medicine" placeholder. */
  function MedicineById(catalog: seq<CatalogEntry>, id: string): (r: Shown)
    ensures r.UnknownMedicine? <==> forall k :: 0 <= k < |catalog| ==> catalog[k].id != id
    ensures r.UnknownMedicine? ==> r.Name() == "Unknown Medicine"
    ensures forall i :: 0 <= i < |catalog| && catalog[i].id == id && (forall k :: 0 <= k < i ==> catalog[k].id != id)
                ==> r == Listed(catalog[i])
  {
    if catalog == [] then UnknownMedicine
    else if catalog[0].id == id then Listed(catalog[0])
    else
      var r := MedicineById(catalog[1..], id);
      assert forall i :: 1 <= i < |catalog| ==> catalog[i] == catalog[1..][i - 1];
      r
  }

  /** The outcome of `checkInteraction`. */
  datatype Check = Rejected(message: string) | Found(interaction: Interaction) | NoInteraction

  const SelectBoth: string := "Please select both medicines"
  const SelectDifferent: string := "Please select two different medicines"

  /**
   * `checkInteraction`: an empty selection and a repeated selection are
   * rejected in that order; only two distinct ids reach the lookup.
   */
  function CheckInteraction(t: seq<Interaction>, a: string, b: string): (r: Check)
    ensures r.Rejected? <==> a == "" || b == "" || a == b
    ensures a == "" || b == "" ==> r == Rejected(SelectBoth)
    ensures a != "" && b != "" && a == b ==> r == Rejected(SelectDifferent)
    ensures r.Found? ==> Pairs(r.interaction, a, b)
    ensures r.Found? ==> FindInteraction(t, a, b) == Some(r.interaction)
    ensures r.NoInteraction? <==> a != "" && b != "" && a != b && forall k :: 0 <= k < |t| ==> !Pairs(t[k], a, b)
  {
    if a == "" || b == "" then Rejected(SelectBoth)
    else if a == b then Rejected(SelectDifferent)
    else match FindInteraction(t, a, b)
      case Some(found) => Found(found)
      case None => NoInteraction
  }

  /** Swapping the two selections changes nothing in the outcome. */
  lemma CheckInteractionSymmetric(t: seq<Interaction>, a: string, b: string)
    ensures CheckInteraction(t, a, b) == CheckInteraction(t, b, a)
  {
    FindInteractionSymmetric(t, a, b);
  }

  /** One card of the common-interactions grid. */
  datatype Card = Card(name1: string, name2: string, severity: Severity, excerpt: string, medicine1: string, medicine2: string)

  function CardOf(catalog: seq<CatalogEntry>, r: Interaction): Card {
    var cut := if |r.description| < 120 then |r.description| else 120;
    Card(MedicineById(catalog, r.medicine1).Name(), MedicineById(catalog, r.medicine2).Name(),
         r.severity, r.description[..cut], r.medicine1, r.medicine2)
  }

  /** `displayCommonInteractions`: one card for each of the first three records. */
  function CommonInteractions(t: seq<Interaction>, catalog: seq<CatalogEntry>): (cards: seq<Card>)
    ensures |cards| == if |t| < 3 then |t| else 3
    ensures forall k :: 0 <= k < |cards| ==>
      && cards[k].medicine1 == t[k].medicine1 && cards[k].medicine2 == t[k].medicine2
      && cards[k].severity == t[k].severity
      && cards[k].name1 == MedicineById(catalog, t[k].medicine1).Name()
      && cards[k].name2 == MedicineById(catalog, t[k].medicine2).Name()
      && cards[k].excerpt <= t[k].description
      && |cards[k].excerpt| == (if |t[k].description| < 120 then |t[k].description| else 120)
  {
    var shown := if |t| < 3 then t else t[..3];
    seq(|shown|, k requires 0 <= k < |shown| => CardOf(catalog, shown[k]))
  }

  /** No two catalog entries share an id. */
  lemma CatalogIdsDistinct()
    ensures forall i, j :: 0 <= i < j < |Catalog| ==> Catalog[i].id != Catalog[j].id
  {
  }

  /** Every record names two catalog medicines, so no card shows the placeholder. */
  lemma TableInCatalog()
    ensures forall k :: 0 <= k < |Table| ==>
      MedicineById(Catalog, Table[k].medicine1).Listed? && MedicineById(Catalog, Table[k].medicine2).Listed?
  {
    forall k | 0 <= k < |Table|
      ensures MedicineById(Catalog, Table[k].medicine1).Listed? && MedicineById(Catalog, Table[k].medicine2).Listed?
    {
      var (i, j) := if k == 0 then (0, 5) else if k == 1 then (1, 5) else if k == 2 then (2, 3)
                    else if k == 3 then (4, 12) else (1, 10);
      assert Catalog[i].id == Table[k].medicine1 && Catalog[j].id == Table[k].medicine2;
    }
  }

  /** No record pairs a medicine with itself, and no two records share a pair. */
  lemma TableWellFormed()
    ensures forall k :: 0 <= k < |Table| ==> Table[k].medicine1 != Table[k].medicine2
    ensures forall i, j :: 0 <= i < j < |Table| ==> !Pairs(Table[j], Table[i].medicine1, Table[i].medicine2)
  {
  }

  /** Ibuprofen with Aspirin is severe in either order; Paracetamol with Ibuprofen has no record. */
  lemma KnownLookups()
    ensures FindInteraction(Table, "med002", "med006") == Some(Table[1])
    ensures FindInteraction(Table, "med006", "med002") == Some(Table[1])
    ensures Table[1].severity == Severe
    ensures FindInteraction(Table, "med001", "med002") == None
  {
    SevereLookup();
    FindInteractionSymmetric(Table, "med002", "med006");
    AbsentLookup();
  }

  /** Ibuprofen with Aspirin: the second record is the first that pairs them. */
  lemma SevereLookup()
    ensures FindInteraction(Table, "med002", "med006") == Some(Table[1])
  {
    assert !Pairs(Table[0], "med002", "med006") && Pairs(Table[1], "med002", "med006");
  }

  /** Paracetamol with Ibuprofen: no record pairs them. */
  lemma AbsentLookup()
    ensures FindInteraction(Table, "med001", "med002") == None
  {
    var t := Table;
    assert t[0].medicine2 == "med006" && t[1].medicine2 == "med006" && t[2].medicine2 == "med004"
      && t[3].medicine2 == "med014" && t[4].medicine2 == "med011";
    NoneOfFive(t, "med001", "med002");
  }

  /** A five-record table none of whose records pairs `a` with `b` has no interaction for them. */
  lemma NoneOfFive(t: seq<Interaction>, a: string, b: string)
    requires |t| == 5
    requires !Pairs(t[0], a, b) && !Pairs(t[1], a, b) && !Pairs(t[2], a, b)
    requires !Pairs(t[3], a, b) && !Pairs(t[4], a, b)
    ensures FindInteraction(t, a, b) == None
  {
    forall k | 0 <= k < |t| ensures !Pairs(t[k], a, b) {
      assert k == 0 || k == 1 || k == 2 || k == 3 || k == 4;
    }
  }
}

=== FILE: main_cart.dfy ===
/**
 * The shop pages' cart: an in-memory list of lines that is written back to
 * the `medicineCart` key after every change (`Storage.WriteCart`).
 */
module MainCart {
  import opened Results
  import opened Model
  import opened CartItems

  /** The line `addToCart` appends for a medicine not yet in the cart. */
  function NewItem(m: Medicine): CartItem {
    CartItem(m.id, m.name, m.price, m.image, 1)
  }

  /**
   * `addToCart`: a medicine already in the cart has its (first) line
   * incremented by one; otherwise a line with quantity 1 is appended.
   */
  function AddToCart(c: seq<CartItem>, m: Medicine): (r: seq<CartItem>)
    ensures |r| == if HasId(c, m.id) then |c| else |c| + 1
    ensures !HasId(c, m.id) ==> r == c + [CartItem(m.id, m.name, m.price, m.image, 1)]
    ensures forall k :: 0 <= k < |c| && c[k].id != m.id ==> r[k] == c[k]
    ensures HasId(c, m.id) ==> forall k :: 0 <= k < |c| ==>
      r[k] == if k == IndexOf(c, m.id).value then c[k].(quantity := c[k].quantity + 1) else c[k]
    ensures UniqueIds(c) ==>
      forall k :: 0 <= k < |c| && c[k].id == m.id ==> r[k] == c[k].(quantity := c[k].quantity + 1)
  {
    match IndexOf(c, m.id)
    case Some(i) => c[i := c[i].(quantity := c[i].quantity + 1)]
    case None => c + [NewItem(m)]
  }

  /**
   * Adding one medicine raises the badge count by one and the total by one
   * unit price: the medicine's own for a new line, the price already on the
   * line otherwise.
   */
  lemma AddToCartSums(c: seq<CartItem>, m: Medicine)
    ensures ItemCount(AddToCart(c, m)) == ItemCount(c) + 1
    ensures !HasId(c, m.id) ==> Subtotal(AddToCart(c, m)) == Subtotal(c) + m.price
    ensures HasId(c, m.id) ==> Subtotal(AddToCart(c, m)) == Subtotal(c) + c[IndexOf(c, m.id).value].price
  {
    match IndexOf(c, m.id)
    case Some(i) =>
      var x := c[i].(quantity := c[i].quantity + 1);
      assert IndexOf(c, m.id) == Some(i);
      assert AddToCart(c, m) == c[i := x];
      SumsReplace(c, i, x);
      LineShare(c[i].price, c[i].quantity);
    case None =>
      var n := NewItem(m);
      assert AddToCart(c, m) == c + [n];
      SumsAppend(c, [n]);
      SumsSingle(n);
  }

  lemma LineShare(price: int, q: int)
    ensures price * (q + 1) == price * q + price
  {
  }

  /** `addToCart` keeps ids unique and quantities positive. */
  lemma AddToCartValid(c: seq<CartItem>, m: Medicine)
    requires Valid(c)
    ensures Valid(AddToCart(c, m))
  {
    match IndexOf(c, m.id)
    case Some(i) =>
      ReplaceKeepsUnique(c, i, c[i].(quantity := c[i].quantity + 1));
    case None =>
      var r := AddToCart(c, m);
      forall a, b | 0 <= a < b < |r| ensures r[a].id != r[b].id {
        if b == |c| {
          assert r[a] == c[a];
        }
      }
  }

  /** `addToCart` applied `n` times in a row. */
  function AddTimes(c: seq<CartItem>, m: Medicine, n: nat): seq<CartItem> {
    if n == 0 then c else AddToCart(AddTimes(c, m, n - 1), m)
  }

  /** Adding the same new medicine `n` times leaves exactly one line for it, with quantity `n`, after the old lines. */
  lemma {:induction false} AddTimesNew(c: seq<CartItem>, m: Medicine, n: nat)
    requires !HasId(c, m.id) && n >= 1
    ensures AddTimes(c, m, n) == c + [NewItem(m).(quantity := n)]
  {
    if n > 1 {
      AddTimesNew(c, m, n - 1);
      var prev := c + [NewItem(m).(quantity := n - 1)];
      assert prev[|c|].id == m.id;
      assert IndexOf(prev, m.id) == Some(|c|) by {
        forall k | 0 <= k < |c| ensures prev[k].id != m.id {
          assert prev[k] == c[k];
        }
      }
    }
  }

  /** Removing an id twice is the same as removing it once. */
  lemma RemoveIdempotent(c: seq<CartItem>, id: string)
    ensures WithoutId(WithoutId(c, id), id) == WithoutId(c, id)
  {
  }

  /**
   * `updateQuantity` of the shop pages (absolute): quantity 0 removes the
   * line, any other value is stored on the first line for `id`, and an
   * absent id changes nothing.
   */
  function SetQuantity(c: seq<CartItem>, id: string, q: int): (r: seq<CartItem>)
    ensures !HasId(c, id) ==> r == c
    ensures HasId(c, id) && q == 0 ==> r == WithoutId(c, id) && |r| < |c|
    ensures HasId(c, id) && q == 0 && UniqueIds(c) ==>
      var i := IndexOf(c, id).value; r == c[..i] + c[i + 1..]
    ensures HasId(c, id) && q != 0 ==>
      |r| == |c| && forall k :: 0 <= k < |c| ==>
        r[k] == if k == IndexOf(c, id).value then c[k].(quantity := q) else c[k]
  {
    match IndexOf(c, id)
    case None => c
    case Some(i) =>
      if q == 0 then
        RemovalSplices(c, id);
        WithoutId(c, id)
      else c[i := c[i].(quantity := q)]
  }

  /**
   * On a valid cart, `updateQuantity` keeps the invariant exactly when the id
   * is absent or the new quantity is not negative: a negative value is stored
   * as it is.
   */
  lemma SetQuantityValid(c: seq<CartItem>, id: string, q: int)
    requires Valid(c)
    ensures Valid(SetQuantity(c, id, q)) <==> !HasId(c, id) || q >= 0
  {
    match IndexOf(c, id)
    case None =>
    case Some(i) =>
      if q == 0 {
        WithoutIdValid(c, id);
      } else {
        ReplaceKeepsUnique(c, i, c[i].(quantity := q));
        if q < 0 {
          assert SetQuantity(c, id, q)[i].quantity == q;
        }
      }
  }
}

=== FILE: model.dfy ===
/**
 * The entities the site keeps in browser storage: cart items, users, orders
 * and the generic JSON-like documents of the mock document service.
 * Money is held in integer cents.
 */
module Model {
  import opened Results

  /** A JSON value as the site stores it; numbers are integers (cents, milliseconds). */
  datatype Value =
    | Str(str: string)
    | Num(num: int)
    | Bool(flag: bool)
    | Arr(elems: seq<Value>)
    | Obj(fields: map<string, Value>)

  /** A stored record of the mock document service: a JSON object. */
  type Document = map<string, Value>

  /** A product offered on the shop pages; `image` may be `undefined`. */
  datatype Medicine = Medicine(id: string, name: string, price: int, image: Option<string>)

  /**
   * One line of the cart. The cart keeps at most one line per `id` and a
   * positive `quantity` (see `CartItems.Valid`); the type itself admits
   * any integer because one operation of the shop can store a negative one.
   */
  datatype CartItem = CartItem(id: string, name: string, price: int, image: Option<string>, quantity: int)

  /** The signed-in user; `isAdmin` stands for a stored `isAdmin: true` field. */
  datatype User = User(uid: string, email: string, displayName: string, isAdmin: bool)

  datatype Customer = Customer(name: string, email: string, phone: string, address: string)

  datatype OrderStatus = Pending

  /** An order as assembled at checkout; `userId` is absent when no user is stored. */
  datatype Order = Order(
    customer: Customer,
    paymentMethod: string,
    notes: string,
    items: seq<CartItem>,
    total: int,
    date: string,
    status: OrderStatus,
    userId: Option<string>)

  /** The JSON object a cart item is stringified to; an `undefined` image is omitted. */
  function ItemValue(it: CartItem): Value {
    Obj(map["id" := Str(it.id), "name" := Str(it.name), "price" := Num(it.price), "quantity" := Num(it.quantity)]
      + (if it.image.Some? then map["image" := Str(it.image.value)] else map[]))
  }

  /** Reads a cart item back from its JSON object; `None` when a field is missing or mistyped. */
  function ItemOf(v: Value): Option<CartItem> {
    if v.Obj? && "id" in v.fields && "name" in v.fields && "price" in v.fields && "quantity" in v.fields
       && v.fields["id"].Str? && v.fields["name"].Str? && v.fields["price"].Num? && v.fields["quantity"].Num?
       && ("image" in v.fields ==> v.fields["image"].Str?)
    then
      var image := if "image" in v.fields then Some(v.fields["image"].str) else None;
      Some(CartItem(v.fields["id"].str, v.fields["name"].str, v.fields["price"].num, image, v.fields["quantity"].num))
    else
      None
  }

  function ItemsValue(items: seq<CartItem>): (v: Value)
    ensures v.Arr? && |v.elems| == |items|
  {
    if items == [] then Arr([]) else Arr([ItemValue(items[0])] + ItemsValue(items[1..]).elems)
  }

  function ItemsOf(vs: seq<Value>): Option<seq<CartItem>> {
    if vs == [] then Some([])
    else match (ItemOf(vs[0]), ItemsOf(vs[1..]))
      case (Some(it), Some(rest)) => Some([it] + rest)
      case _ => None
  }

  /** A cart item survives stringify-then-parse unchanged. */
  lemma ItemRoundTrip(it: CartItem)
    ensures ItemOf(ItemValue(it)) == Some(it)
  {
    var f := ItemValue(it).fields;
    assert "image" in f <==> it.image.Some?;
  }

  /** A whole cart survives stringify-then-parse unchanged. */
  lemma {:induction false} ItemsRoundTrip(items: seq<CartItem>)
    ensures ItemsOf(ItemsValue(items).elems) == Some(items)
  {
    if items != [] {
      var vs := ItemsValue(items).elems;
      assert vs[0] == ItemValue(items[0]);
      assert vs[1..] == ItemsValue(items[1..]).elems;
      ItemRoundTrip(items[0]);
      ItemsRoundTrip(items[1..]);
      assert [items[0]] + items[1..] == items;
    }
  }

  function CustomerValue(c: Customer): Value {
    Obj(map["name" := Str(c.name), "email" := Str(c.email), "phone" := Str(c.phone), "address" := Str(c.address)])
  }

  function StatusText(s: OrderStatus): string {
    match s
    case Pending => "Pending"
  }

  /** The JSON object an order is stringified to, before any id is attached. */
  function OrderFields(o: Order): (d: Document)
    ensures "id" !in d && "createdAt" !in d && "updatedAt" !in d
    ensures "items" in d && "status" in d
    ensures d["items"].Arr? && ItemsOf(d["items"].elems) == Some(o.items)
    ensures d["status"] == Str(StatusText(o.status))
    ensures "userId" in d <==> o.userId.Some?
    ensures "customer" in d && d["customer"] == CustomerValue(o.customer)
    ensures "paymentMethod" in d && d["paymentMethod"] == Str(o.paymentMethod)
    ensures "notes" in d && d["notes"] == Str(o.notes)
    ensures "total" in d && d["total"] == Num(o.total)
    ensures "date" in d && d["date"] == Str(o.date)
    ensures o.userId.Some? ==> d["userId"] == Str(o.userId.value)
  {
    ItemsRoundTrip(o.items);
    map["customer" := CustomerValue(o.customer), "paymentMethod" := Str(o.paymentMethod),
        "notes" := Str(o.notes), "items" := ItemsValue(o.items), "total" := Num(o.total),
        "date" := Str(o.date), "status" := Str(StatusText(o.status))]
      + (if o.userId.Some? then map["userId" := Str(o.userId.value)] else map[])
  }

  /** Reads a customer back from its JSON object; `None` when a field is missing or not a string. */
  function CustomerOf(v: Value): Option<Customer> {
    if v.Obj? && "name" in v.fields && "email" in v.fields && "phone" in v.fields && "address" in v.fields
       && v.fields["name"].Str? && v.fields["email"].Str? && v.fields["phone"].Str? && v.fields["address"].Str?
    then Some(Customer(v.fields["name"].str, v.fields["email"].str, v.fields["phone"].str, v.fields["address"].str))
    else None
  }

  /**
   * Reads an order back from a stored object, ignoring the `id`,
   * `createdAt` and `updatedAt` a store adds; `None` when a field is missing
   * or mistyped.
   */
  function OrderOf(d: Document): Option<Order> {
    if "customer" in d && "paymentMethod" in d && "notes" in d && "items" in d && "total" in d
       && "date" in d && "status" in d
       && d["paymentMethod"].Str? && d["notes"].Str? && d["items"].Arr? && d["total"].Num?
       && d["date"].Str? && d["status"] == Str(StatusText(Pending))
       && ("userId" in d ==> d["userId"].Str?)
    then
      var userId := if "userId" in d then Some(d["userId"].str) else None;
      match (CustomerOf(d["customer"]), ItemsOf(d["items"].elems))
      case (Some(c), Some(items)) =>
        Some(Order(c, d["paymentMethod"].str, d["notes"].str, items, d["total"].num, d["date"].str, Pending, userId))
      case _ => None
    else None
  }

  /** An order survives stringify-then-parse unchanged: every field, the cart and the optional user id. */
  lemma OrderRoundTrip(o: Order)
    ensures OrderOf(OrderFields(o)) == Some(o)
  {
    var d := OrderFields(o);
    assert CustomerOf(d["customer"]) == Some(o.customer);
    assert ItemsOf(d["items"].elems) == Some(o.items);
    var userId := if "userId" in d then Some(d["userId"].str) else None;
    assert userId == o.userId;
    assert o.status == Pending;
  }
}

=== FILE: recent_searches.dfy ===
/**
 * The recent-search list under `recentSearches`: most recent first, no two
 * entries equal up to case, at most five entries.
 */
module RecentSearches {
  import opened Text
  import opened Storage

  const MaxRecent: nat := 5

  /** Two queries name the same search when they agree after lower-casing. */
  predicate SameQuery(a: string, b: string) {
    ToLower(a) == ToLower(b)
  }

  /** `searches.filter(s => s.toLowerCase() !== query.toLowerCase())`. */
  function DropMatches(s: seq<string>, q: string): (r: seq<string>)
    ensures forall x :: x in r <==> x in s && !SameQuery(x, q)
    ensures |r| <= |s|
  {
    if s == [] then []
    else if SameQuery(s[0], q) then DropMatches(s[1..], q)
    else [s[0]] + DropMatches(s[1..], q)
  }

  /**
   * The filter works entry by entry and keeps the survivors in their old
   * order: it distributes over concatenation, and a single entry is kept
   * exactly when it is not the query up to case.
   */
  lemma {:induction false} DropMatchesAppend(a: seq<string>, b: seq<string>, q: string)
    ensures DropMatches(a + b, q) == DropMatches(a, q) + DropMatches(b, q)
    ensures |a| == 1 ==> DropMatches(a, q) == if SameQuery(a[0], q) then [] else a
  {
    if a == [] {
      assert a + b == b;
    } else {
      assert (a + b)[1..] == a[1..] + b;
      DropMatchesAppend(a[1..], b, q);
      if |a| == 1 {
        assert a[1..] == [];
      }
    }
  }

  /**
   * The list after a search for `q`: `q` first, then the surviving older
   * entries in their old order, cut to five.
   */
  function Push(s: seq<string>, q: string): (r: seq<string>)
    ensures 1 <= |r| <= MaxRecent && r[0] == q
    ensures forall k :: 1 <= k < |r| ==> !SameQuery(r[k], q)
    ensures r[1..] <= DropMatches(s, q)
    ensures |r| == if 1 + |DropMatches(s, q)| < MaxRecent then 1 + |DropMatches(s, q)| else MaxRecent
  {
    var kept := [q] + DropMatches(s, q);
    assert forall k :: 1 <= k < |kept| ==> kept[k] in DropMatches(s, q);
    if |kept| <= MaxRecent then kept else kept[..MaxRecent]
  }

  /** The stored list: no two entries the same search. */
  predicate NoCaseDuplicates(s: seq<string>) {
    forall i, j :: 0 <= i < j < |s| ==> !SameQuery(s[i], s[j])
  }

  lemma {:induction false} DropMatchesNoCaseDuplicates(s: seq<string>, q: string)
    requires NoCaseDuplicates(s)
    ensures NoCaseDuplicates(DropMatches(s, q))
  {
    if s != [] {
      var t := s[1..];
      assert NoCaseDuplicates(t) by {
        forall i, j | 0 <= i < j < |t| ensures !SameQuery(t[i], t[j]) {
          assert t[i] == s[i + 1] && t[j] == s[j + 1];
        }
      }
      DropMatchesNoCaseDuplicates(t, q);
      if !SameQuery(s[0], q) {
        var r := DropMatches(s, q);
        var rest := DropMatches(t, q);
        assert r == [s[0]] + rest;
        forall i, j | 0 <= i < j < |r| ensures !SameQuery(r[i], r[j]) {
          if i == 0 {
            assert r[j] == rest[j - 1];
            assert rest[j - 1] in t;
            var m :| 0 <= m < |t| && t[m] == rest[j - 1];
            assert s[m + 1] == t[m];
          } else {
            assert r[i] == rest[i - 1] && r[j] == rest[j - 1];
          }
        }
      }
    }
  }

  /** Adding a search keeps the list free of case-insensitive duplicates. */
  lemma PushNoCaseDuplicates(s: seq<string>, q: string)
    requires NoCaseDuplicates(s)
    ensures NoCaseDuplicates(Push(s, q))
  {
    DropMatchesNoCaseDuplicates(s, q);
    var d := DropMatches(s, q);
    var r := Push(s, q);
    forall i, j | 0 <= i < j < |r| ensures !SameQuery(r[i], r[j]) {
      if i > 0 {
        assert r[i] == r[1..][i - 1] == d[i - 1];
        assert r[j] == r[1..][j - 1] == d[j - 1];
      }
    }
  }

  /** A list with no entry matching `q` passes through the filter unchanged. */
  lemma {:induction false} DropMatchesNone(s: seq<string>, q: string)
    requires forall k :: 0 <= k < |s| ==> !SameQuery(s[k], q)
    ensures DropMatches(s, q) == s
  {
    if s != [] {
      DropMatchesNone(s[1..], q);
      assert [s[0]] + s[1..] == s;
    }
  }

  /**
   * Searching again for the same query, in any letter case, gives the list a
   * single search for the later spelling would give: the entry moves to the
   * front once.
   */
  lemma PushSameQuery(s: seq<string>, q1: string, q2: string)
    requires SameQuery(q1, q2)
    ensures Push(Push(s, q1), q2) == Push(s, q2)
  {
    var d1 := DropMatches(s, q1);
    var d2 := DropMatches(s, q2);
    assert d1 == d2 by {
      DropMatchesSameQuery(s, q1, q2);
    }
    var p := Push(s, q1);
    var tail := p[1..];
    assert p == [q1] + tail;
    assert DropMatches(p, q2) == DropMatches(tail, q2);
    DropMatchesNone(tail, q2);
    assert tail <= d2;
    assert Push(Push(s, q1), q2) == [q2] + tail;
  }

  lemma {:induction false} DropMatchesSameQuery(s: seq<string>, q1: string, q2: string)
    requires SameQuery(q1, q2)
    ensures DropMatches(s, q1) == DropMatches(s, q2)
  {
    if s != [] {
      DropMatchesSameQuery(s[1..], q1, q2);
    }
  }

  /** Searching for the same query twice leaves the list a single search leaves. */
  lemma PushIdempotent(s: seq<string>, q: string)
    ensures Push(Push(s, q), q) == Push(s, q)
  {
    PushSameQuery(s, q, q);
  }

  /** `getRecentSearches`: the stored list, or the empty list when none is stored. */
  function GetRecentSearches(st: Store): (r: seq<string>)
    ensures SearchesKey !in st ==> r == []
    ensures SearchesKey in st && st[SearchesKey].SearchesEntry? ==> r == st[SearchesKey].queries
  {
    SearchesOf(st)
  }

  /** `addToRecentSearches`: store the pushed list under `recentSearches` and touch nothing else. */
  function AddToRecentSearches(st: Store, q: string): (st': Store)
    ensures var r := GetRecentSearches(st');
      && 1 <= |r| <= MaxRecent && r[0] == q
      && (forall k :: 1 <= k < |r| ==> !SameQuery(r[k], q))
      && r[1..] <= DropMatches(GetRecentSearches(st), q)
    ensures var kept := |DropMatches(GetRecentSearches(st), q)|;
      |GetRecentSearches(st')| == if kept < MaxRecent - 1 then kept + 1 else MaxRecent
    ensures GetRecentSearches(st') == Push(GetRecentSearches(st), q)
    ensures SameExcept(st, st', SearchesKey)
  {
    WriteSearches(st, Push(GetRecentSearches(st), q))
  }

  /** The search box: the trimmed query is recorded unless it is empty. */
  function SubmitSearch(st: Store, input: string): (st': Store)
    ensures Trim(input) == [] ==> st' == st
    ensures Trim(input) != [] ==> |GetRecentSearches(st')| >= 1 && GetRecentSearches(st')[0] == Trim(input)
    ensures Trim(input) != [] ==> GetRecentSearches(st')[1..] <= DropMatches(GetRecentSearches(st), Trim(input))
    ensures Trim(input) != [] ==> GetRecentSearches(st') == Push(GetRecentSearches(st), Trim(input))
    ensures SameExcept(st, st', SearchesKey)
  {
    var query := Trim(input);
    if query != "" then AddToRecentSearches(st, query) else st
  }
}

=== FILE: results.dfy ===
/** Absent values and success/error outcomes shared by every component. */
module Results {

  /** A value that may be missing: a lookup miss, an `undefined` field. */
  datatype Option<+T> = None | Some(value: T)

  /** The success or error callback of a mocked asynchronous call, delivered synchronously. */
  datatype Result<+T> = Ok(value: T) | Err(message: string)
}

=== FILE: storage.dfy ===
/**
 * The browser's key-value store, with each key holding a typed entry instead
 * of a JSON string. A key that is missing, or holds an entry of another kind,
 * reads as the empty value, as the site's `JSON.parse(... || '[]')` does.
 */
module Storage {
  import opened Results
  import opened Model

  datatype Entry =
    | CartEntry(items: seq<CartItem>)
    | SearchesEntry(queries: seq<string>)
    | UserEntry(user: User)
    | DocsEntry(docs: seq<Document>)

  type Store = map<string, Entry>

  const CartKey: string := "medicineCart"
  const SearchesKey: string := "recentSearches"
  const OrdersKey: string := "orders"
  const UserKey: string := "user"

  /** `b` agrees with `a` on every key but `key`. */
  predicate SameExcept(a: Store, b: Store, key: string) {
    a - {key} == b - {key}
  }

  function CartOf(st: Store): seq<CartItem> {
    if CartKey in st && st[CartKey].CartEntry? then st[CartKey].items else []
  }

  function SearchesOf(st: Store): seq<string> {
    if SearchesKey in st && st[SearchesKey].SearchesEntry? then st[SearchesKey].queries else []
  }

  function CurrentUser(st: Store): Option<User> {
    if UserKey in st && st[UserKey].UserEntry? then Some(st[UserKey].user) else None
  }

  function Collection(st: Store, name: string): seq<Document> {
    if name in st && st[name].DocsEntry? then st[name].docs else []
  }

  /** `localStorage.setItem('medicineCart', ...)`: the cart reads back as written; no other key moves. */
  function WriteCart(st: Store, items: seq<CartItem>): (st': Store)
    ensures CartOf(st') == items
    ensures SameExcept(st, st', CartKey)
  {
    st[CartKey := CartEntry(items)]
  }

  function WriteSearches(st: Store, queries: seq<string>): (st': Store)
    ensures SearchesOf(st') == queries
    ensures SameExcept(st, st', SearchesKey)
  {
    st[SearchesKey := SearchesEntry(queries)]
  }

  function WriteUser(st: Store, u: User): (st': Store)
    ensures CurrentUser(st') == Some(u)
    ensures SameExcept(st, st', UserKey)
  {
    st[UserKey := UserEntry(u)]
  }

  function WriteCollection(st: Store, name: string, docs: seq<Document>): (st': Store)
    ensures Collection(st', name) == docs
    ensures SameExcept(st, st', name)
  {
    st[name := DocsEntry(docs)]
  }

  /** `localStorage.removeItem(key)`: the key is gone and no other key moves. */
  function RemoveKey(st: Store, key: string): (st': Store)
    ensures key !in st'
    ensures SameExcept(st, st', key)
  {
    st - {key}
  }
}

=== FILE: text.dfy ===
/**
 * The string operations the site applies to user input: `trim`, ASCII case
 * mapping, the e-mail local part (`split('@')[0]`) and the decimal rendering
 * of a millisecond timestamp.
 */
module Text {

  /** The ECMAScript WhiteSpace and LineTerminator code points outside the U+2000..U+200A run. */
  const Blanks: set<char> := {
    '\t', '\n', '\U{000B}', '\U{000C}', '\r', ' ', '\U{00A0}', '\U{1680}',
    '\U{2028}', '\U{2029}', '\U{202F}', '\U{205F}', '\U{3000}', '\U{FEFF}'
  }

  /** The code points `trim` strips. */
  predicate IsWhitespace(c: char) {
    c in Blanks || '\U{2000}' <= c <= '\U{200A}'
  }

  /** Drops leading whitespace: the result is a suffix of `s` and starts with a non-blank. */
  function TrimStart(s: string): (r: string)
    ensures |r| <= |s| && r == s[|s| - |r|..]
    ensures forall k :: 0 <= k < |s| - |r| ==> IsWhitespace(s[k])
    ensures r == [] || !IsWhitespace(r[0])
  {
    if |s| > 0 && IsWhitespace(s[0]) then TrimStart(s[1..]) else s
  }

  /** Drops trailing whitespace: the result is a prefix of `s` and ends with a non-blank. */
  function TrimEnd(s: string): (r: string)
    ensures |r| <= |s| && r == s[..|r|]
    ensures forall k :: |r| <= k < |s| ==> IsWhitespace(s[k])
    ensures r == [] || !IsWhitespace(r[|r| - 1])
  {
    if |s| > 0 && IsWhitespace(s[|s| - 1]) then TrimEnd(s[..|s| - 1]) else s
  }

  /** `String.prototype.trim`. */
  function Trim(s: string): (r: string)
    ensures r == [] || (!IsWhitespace(r[0]) && !IsWhitespace(r[|r| - 1]))
    ensures var i := |s| - |TrimStart(s)|;
      && i + |r| <= |s| && r == s[i..i + |r|]
      && (forall k :: 0 <= k < i ==> IsWhitespace(s[k]))
      && (forall k :: i + |r| <= k < |s| ==> IsWhitespace(s[k]))
  {
    var t := TrimStart(s);
    var r := TrimEnd(t);
    TrimSlice(s, t, r);
    r
  }

  /** Trimming the end of a suffix gives a slice of the original, with whitespace on both sides. */
  lemma TrimSlice(s: string, t: string, r: string)
    requires |t| <= |s| && t == s[|s| - |t|..]
    requires forall k :: 0 <= k < |s| - |t| ==> IsWhitespace(s[k])
    requires t == [] || !IsWhitespace(t[0])
    requires |r| <= |t| && r == t[..|r|]
    requires forall k :: |r| <= k < |t| ==> IsWhitespace(t[k])
    requires r == [] || !IsWhitespace(r[|r| - 1])
    ensures r == [] || (!IsWhitespace(r[0]) && !IsWhitespace(r[|r| - 1]))
    ensures var i := |s| - |t|;
      && i + |r| <= |s| && r == s[i..i + |r|]
      && (forall k :: 0 <= k < i ==> IsWhitespace(s[k]))
      && (forall k :: i + |r| <= k < |s| ==> IsWhitespace(s[k]))
  {
    var i := |s| - |t|;
    if r != [] {
      assert r[0] == t[0];
    }
    forall k | i + |r| <= k < |s| ensures IsWhitespace(s[k]) {
      assert s[k] == t[k - i];
    }
  }

  /** A string trims to the empty string exactly when every character of it is whitespace. */
  lemma TrimEmptyIff(s: string)
    ensures Trim(s) == [] <==> forall k :: 0 <= k < |s| ==> IsWhitespace(s[k])
  {
  }

  /** ASCII `toLowerCase` of one character. */
  function LowerChar(c: char): char {
    if 'A' <= c <= 'Z' then (c as int + 32) as char else c
  }

  /** ASCII `toUpperCase` of one character. */
  function UpperChar(c: char): char {
    if 'a' <= c <= 'z' then (c as int - 32) as char else c
  }

  function ToLower(s: string): (r: string)
    ensures |r| == |s|
    ensures forall k :: 0 <= k < |s| ==> r[k] == LowerChar(s[k])
  {
    if s == [] then [] else [LowerChar(s[0])] + ToLower(s[1..])
  }

  function ToUpper(s: string): (r: string)
    ensures |r| == |s|
    ensures forall k :: 0 <= k < |s| ==> r[k] == UpperChar(s[k])
  {
    if s == [] then [] else [UpperChar(s[0])] + ToUpper(s[1..])
  }

  /** Lower-casing twice changes nothing more than lower-casing once. */
  lemma ToLowerIdempotent(s: string)
    ensures ToLower(ToLower(s)) == ToLower(s)
  {
    assert forall k :: 0 <= k < |s| ==> LowerChar(LowerChar(s[k])) == LowerChar(s[k]);
  }

  /**
   * `s.split('@')[0]`: the text before the first '@', or all of `s` when it
   * holds no '@'.
   */
  function BeforeAt(s: string): (r: string)
    ensures r <= s
    ensures '@' !in r
    ensures |r| < |s| ==> s[|r|] == '@'
  {
    if s == [] || s[0] == '@' then [] else [s[0]] + BeforeAt(s[1..])
  }

  /** An address without '@' is its own local part. */
  lemma BeforeAtWithoutAt(s: string)
    requires '@' !in s
    ensures BeforeAt(s) == s
  {
  }

  function DigitChar(d: nat): (c: char)
    requires d < 10
    ensures '0' <= c <= '9'
  {
    ('0' as int + d) as char
  }

  predicate IsDigits(s: string) {
    forall k :: 0 <= k < |s| ==> '0' <= s[k] <= '9'
  }

  /** `String(n)` for a non-negative integer such as `Date.now()`: its decimal digits. */
  function Decimal(n: nat): (r: string)
    ensures |r| >= 1 && IsDigits(r)
  {
    if n < 10 then [DigitChar(n)] else Decimal(n / 10) + [DigitChar(n % 10)]
  }

  /** The number a string of decimal digits denotes; the reference reading of `Decimal`. */
  function DigitsValue(s: string): nat
    requires IsDigits(s)
  {
    if s == [] then 0 else 10 * DigitsValue(s[..|s| - 1]) + (s[|s| - 1] as int - '0' as int)
  }

  /** Reading back the decimal rendering of `n` gives `n`. */
  lemma {:induction false} DecimalRoundTrip(n: nat)
    ensures DigitsValue(Decimal(n)) == n
  {
    if n >= 10 {
      var d := Decimal(n);
      assert d[..|d| - 1] == Decimal(n / 10);
      DecimalRoundTrip(n / 10);
    }
  }

  /** Distinct timestamps render as distinct strings. */
  lemma DecimalInjective(a: nat, b: nat)
    ensures Decimal(a) == Decimal(b) ==> a == b
  {
    DecimalRoundTrip(a);
    DecimalRoundTrip(b);
  }
}
